=== FILE: README.md ===
# Dice store model

This project is a Dafny model of the dice store of the dice-roller web
application (`src/stores/diceStore.ts`), plus the step that turns a pending
roll into one die per requested dice (`src/components/Dice3DLayer.tsx`).
The store does three things:

- `parseComplexFormula` reads a formula such as `2d6+1d8+5` or `4dF+2`. It
  drops whitespace and lower-cases the text, splits it on `+`, and sorts each
  part into a Fudge group (`df`), a standard dice group (`d`) or a flat
  modifier.
- `performSystemRoll` rejects formulas with no dice group, or whose group
  quantities add up to more than 20. The sum is signed, so it need not be the
  number of dice thrown (see Findings). Otherwise it stores a pending roll request and marks the
  store as rolling.
- `finalizeDiceRoll` takes the face values the physics engine reports. It
  sums them, adds the modifier, writes the breakdown text, publishes the
  result and returns the store to idle.

The model is functional: the store state is the `DiceState` datatype and
each store action is a function from state to state. JavaScript's own
behaviour is written out where the code relies on it, in module `JsText`:

- `parseInt` reads an optional sign and then the leading decimal digits. It
  yields `None` for NaN.
- `x || d` treats NaN and 0 as false (`Formula.OrElse`).
- `split` cuts at leftmost occurrences.
- `Array.from({length: n})` gives zero elements when `n` is NaN or negative.
- `reduce` is a left fold, so one NaN quantity makes the whole total NaN.
  `NaN > 20` is false.

Modules:

- `Wrappers` holds `Option`.
- `JsText` holds string search, `split`/`join`, whitespace removal and
  lower-casing, `parseInt`, and number rendering.
- `Formula` holds the formula parser and its properties. This includes a
  round trip from a written-out formula (`TermSpec`) to its parse, against
  the independent reference meaning `Formula.Intended`.
- `DiceExpansion` holds the expansion of groups into single dice.
- `DiceStore` holds the store state and its two actions, the roll cycle,
  and the dice-cap finding below.

Some behaviour a reader might expect from a dice roller is absent from the
code, and the model follows the code:

- No Fudge face mapping is applied. Fudge dice are rolled as six-sided dice
  and their raw faces are summed (`DiceStore.FudgeSummedRaw`).
- No critical outcomes are detected. The outcome types
  (`src/stores/diceStore.ts:5`, `src/types.ts:10`) include critical success
  and critical failure, but `finalizeDiceRoll` only ever writes `NEUTRAL`
  (`src/stores/diceStore.ts:92`).
- There is no watchdog timer that clears a stuck roll, and finalising does
  not check that the results belong to the pending request's id.
- A `d` group whose faces do not parse is still pushed, with unknown faces.
  It is not dropped.
- The modifier appears in the breakdown only when it is positive. A negative
  modifier still counts in the total.
- The published die type is always "MIXED", and the author id is always
  "local-user" (`src/stores/diceStore.ts:93`). "MIXED" is not among the
  die types `src/types.ts:9` declares.
- A second accepted roll replaces a pending one.

## Model

| member | source | states |
|---|---|---|
| JsText.ToLower | src/stores/diceStore.ts:33 | an upper-case ASCII letter becomes the lower-case letter at the same place in the alphabet; every other character is kept; the result is never upper case |
| JsText.Normalize | src/stores/diceStore.ts:33 | removing whitespace and lower-casing never lengthens the text, and what remains has no whitespace and no upper-case letter |
| JsText.NormalizeChar | src/stores/diceStore.ts:33 | one character normalises to nothing when it is whitespace and otherwise to its lower-case form; with `JsText.NormalizeAppend` this fixes the result of normalising any text |
| JsText.NormalizeAppend | src/stores/diceStore.ts:33 | whitespace removal and lower-casing work character by character, so they distribute over concatenation |
| JsText.NormalizeNormal | src/stores/diceStore.ts:33 | text that already has no whitespace or upper case is left unchanged |
| JsText.NormalizeIdempotent | src/stores/diceStore.ts:33 | normalising twice is the same as normalising once |
| JsText.NormalizeBlank | src/stores/diceStore.ts:33 | an all-whitespace formula normalises to the empty string |
| JsText.IndexOfFrom | src/stores/diceStore.ts:39 | the search result is an occurrence at or after the start, and no earlier one exists; no result means no occurrence at all |
| JsText.IndexOfIs | src/stores/diceStore.ts:39 | the first occurrence is what the search returns |
| JsText.IndexOfCharAfter | src/stores/diceStore.ts:44 | a character absent from the prefix is first found right after that prefix |
| JsText.NotIncludedByFirstChar | src/stores/diceStore.ts:39 | a pattern whose first character never occurs in the text is not included |
| JsText.CharNotIncluded | src/stores/diceStore.ts:43 | a one-character pattern that is not included occurs at no index |
| JsText.SplitOn | src/stores/diceStore.ts:33 | split gives at least one piece, and two or more exactly when the separator occurs; without the separator it is the whole text, and the first piece is the text before the first occurrence |
| JsText.JoinEnds | src/stores/diceStore.ts:89 | a join starts with its first part and ends with its last part |
| JsText.SplitPiecesExclude | src/stores/diceStore.ts:33 | no piece of a split contains the separator |
| JsText.JoinSplit | src/stores/diceStore.ts:33 | joining the pieces of a split with the separator gives the original text back |
| JsText.SplitAppend | src/stores/diceStore.ts:33 | splitting on a character distributes over text joined at that character |
| JsText.SplitJoin | src/stores/diceStore.ts:33 | splitting the join of separator-free parts gives the parts back |
| JsText.NormalizeJoin | src/stores/diceStore.ts:33 | removing whitespace and lower-casing a join of parts that need neither only normalises the separators, so `+`-joined terms stay as written and ` + `-joined numerals become `+`-joined |
| JsText.DigitRun | src/stores/diceStore.ts:45 | the digit run is the longest all-digit prefix |
| JsText.ParseIntPrefix | src/stores/diceStore.ts:45 | parseInt is NaN exactly when no digit follows the optional sign, and it reads a negative number only after a leading minus |
| JsText.IntToString | src/stores/diceStore.ts:89 | a number renders as a non-empty string of sign and digits that starts with a digit exactly when the number is non-negative |
| JsText.NatToString | src/stores/diceStore.ts:89 | a natural number renders as a non-empty digit string that starts with 0 only for 0 itself, which is a single digit |
| JsText.IntToStringCanonical | src/stores/diceStore.ts:89 | a rendered integer is canonical: an optional minus sign, then digits with no leading zero, and never `-0` |
| JsText.NatToStringOfDigits | src/stores/diceStore.ts:89 | canonical digits are the rendering of their own value |
| JsText.CanonicalNumeralIsRendering | src/stores/diceStore.ts:89 | every canonical numeral is the rendering of the number parseInt reads from it, so the rendering of n is the only canonical numeral that reads back as n |
| JsText.DigitsValueOfNatToString | src/stores/diceStore.ts:89 | the digits a natural number renders as read back as that number |
| JsText.DigitRunOfDigits | src/stores/diceStore.ts:45 | parseInt's digit run stops where a non-digit follows the digits |
| JsText.ParseIntOfIntToString | src/stores/diceStore.ts:45 | parseInt reads back any rendered integer, whatever non-digit text follows it |
| JsText.ParseIntOfDigits | src/stores/diceStore.ts:45 | parseInt of a digit string followed by a non-digit reads the digits' value |
| JsText.ParseIntOfNegativeDigits | src/stores/diceStore.ts:45 | parseInt of a minus sign, digits and a non-digit reads the negated value of the digits |
| JsText.NumeralExcludes | src/stores/diceStore.ts:39 | a rendered number contains no pattern that starts with a non-numeral character, such as `d`, `df` or `+` |
| JsText.ExampleLowerDice | src/stores/diceStore.ts:33 | `2d6` is left as it is |
| JsText.ExampleCapitalD | src/stores/diceStore.ts:33 | `1D8` normalises to `1d8` |
| JsText.NormalizeSpacedPlus | src/stores/diceStore.ts:33 | normalising text around ` + ` normalises each side and leaves a bare `+` between them |
| JsText.ExampleSpacedNormal | src/stores/diceStore.ts:33 | `2d6 + 1D8 + 5` normalises to `2d6+1d8+5` |
| JsText.ExampleFudgeUpperNormal | src/stores/diceStore.ts:33 | `4dF+2` normalises to `4df+2` |
| Formula.OrElse | src/stores/diceStore.ts:45-47 | `x || d` gives the number when it is defined and non-zero, and the default otherwise; it is zero only when the default is |
| Formula.ClassifyTerm | src/stores/diceStore.ts:39-48 | a part is a Fudge group exactly when it contains `df`, and a dice group exactly when it contains `d` but not `df`; Fudge groups have six faces and dice groups a defined non-zero quantity |
| Formula.ParseTerms | src/stores/diceStore.ts:38-49 | the parser pushes at most one group per part |
| Formula.Terms | src/stores/diceStore.ts:33 | a formula, even an empty one, yields at least one part |
| Formula.ParseComplexFormula | src/stores/diceStore.ts:32-51 | the parse pushes at most one group per `+`-separated part of the normalised formula, and sets the Fudge flag exactly when some part contains `df` |
| Formula.FudgeFlagIffFudgeTerm | src/stores/diceStore.ts:36-42 | the Fudge flag is set exactly when some part contains `df` |
| Formula.FudgeTermOfFlag | src/stores/diceStore.ts:39-42 | when the Fudge flag is set, a part containing `df` can be named |
| Formula.NoFudgeTermWithoutFlag | src/stores/diceStore.ts:39-42 | when the Fudge flag is clear, no part contains `df` |
| Formula.FudgeFlagStep | src/stores/diceStore.ts:42 | each part sets the flag when it contains `df` and never clears it |
| Formula.StandardQuantitiesNonZero | src/stores/diceStore.ts:45 | without Fudge parts every group has a defined, non-zero quantity, because NaN and 0 fall back to 1 |
| Formula.ParseTermsAppend | src/stores/diceStore.ts:38-49 | parsing two lists of parts in a row concatenates their groups, adds their modifiers and ors their Fudge flags |
| Formula.StepCombine | src/stores/diceStore.ts:38-49 | one more part acts on combined results as it acts on the later one |
| Formula.ParseConcat | src/stores/diceStore.ts:32-51 | the parse of `a+b` combines the parses of `a` and `b` |
| Formula.ParseIgnoresSpaceAndCase | src/stores/diceStore.ts:33 | parsing the normalised text gives the same result as parsing the original |
| Formula.ParseIgnoresWhitespace | src/stores/diceStore.ts:33 | inserting a whitespace character anywhere in a formula does not change its parse |
| Formula.ParseIgnoresCase | src/stores/diceStore.ts:33 | replacing any character of a formula by its lower-case form does not change its parse |
| Formula.ParseBlank | src/stores/diceStore.ts:32-51 | an empty or blank formula parses to no groups, modifier 0 and no Fudge flag |
| Formula.RenderedTermIsNormal | src/stores/diceStore.ts:33 | a written-out term has no whitespace, no upper case and no `+` |
| Formula.NoFudgeMarker | src/stores/diceStore.ts:39 | `<x>d<y>` contains no `df` when x has no `d`, y does not start with `f` and y has no `df` |
| Formula.NoFudgeMarkerNumeral | src/stores/diceStore.ts:39 | `<x>d<n>` with d-free x and a numeral n contains no `df` |
| Formula.SplitDice | src/stores/diceStore.ts:44 | splitting `x d y` on `d` gives `x` and `y` when neither contains `d` |
| Formula.SplitFudge | src/stores/diceStore.ts:40 | the text before `df` in `x df` is `x` |
| Formula.ClassifyDice | src/stores/diceStore.ts:43-45 | `<q>d<f>` with q non-zero is a dice group of q dice with f faces |
| Formula.ClassifyBareDice | src/stores/diceStore.ts:45 | `d<f>` is one die with f faces |
| Formula.ClassifyFudge | src/stores/diceStore.ts:39-42 | `<q>df` is q six-sided Fudge dice |
| Formula.ClassifyBareFudge | src/stores/diceStore.ts:41 | a bare `df` is four six-sided Fudge dice |
| Formula.ClassifyFlat | src/stores/diceStore.ts:46-48 | a written number is a modifier of that value |
| Formula.ClassifyMissingFaces | src/stores/diceStore.ts:44-45 | `<q>d` with no faces is still a dice group, with unknown faces |
| Formula.ClassifyUnreadableFudge | src/stores/diceStore.ts:40-41 | a non-empty but unreadable Fudge quantity gives a NaN quantity, not the default 4 |
| Formula.ClassifyZeroQuantity | src/stores/diceStore.ts:45 | `0d<f>` is one die with f faces, because 0 falls back to 1 |
| Formula.ClassifyUnreadableQuantity | src/stores/diceStore.ts:45 | `<x>d<f>` with a d-free x that parseInt cannot read is one die with f faces |
| Formula.ClassifyExtraFaces | src/stores/diceStore.ts:44-45 | `<q>d<f>d<g>` is q dice with f faces: only the first two pieces of the split are read |
| Formula.ClassifyUnreadableModifier | src/stores/diceStore.ts:46-47 | a d-free part that parseInt cannot read adds 0 to the modifier |
| Formula.ClassifyRendered | src/stores/diceStore.ts:38-49 | each well-written term is parsed to its intended meaning |
| Formula.ParseRenderedTerms | src/stores/diceStore.ts:38-49 | a list of well-written terms parses to the reference meaning |
| Formula.ParseFormulaText | src/stores/diceStore.ts:32-51 | any formula written from well-written terms joined by `+` parses to the reference meaning: the groups in order, the modifiers summed, and the Fudge flag set exactly when a Fudge term is present |
| Formula.ExampleStandard | src/stores/diceStore.ts:32-51 | `2d6+1d8+5` parses to 2d6 and 1d8 with modifier 5 and no Fudge flag |
| Formula.ExampleStandardMeaning | src/stores/diceStore.ts:32-51 | the reference meaning of 2d6, 1d8, +5 is those two groups with modifier 5 |
| Formula.ExampleStandardText | src/stores/diceStore.ts:32-51 | `2d6+1d8+5` is the text written for 2d6, 1d8, +5 |
| Formula.ExampleStandardTermsParse | src/stores/diceStore.ts:32-51 | the text written for 2d6, 1d8, 5 parses to those two groups with modifier 5 and no Fudge flag |
| Formula.ExampleFudge | src/stores/diceStore.ts:32-51 | `4df+2` parses to four six-sided dice with modifier 2 and the Fudge flag |
| Formula.ExampleFudgeMeaning | src/stores/diceStore.ts:32-51 | the reference meaning of 4dF, +2 is one Fudge group of four with modifier 2 |
| Formula.ExampleFudgeText | src/stores/diceStore.ts:32-51 | `4df+2` is the text written for 4dF, +2 |
| Formula.ExampleFudgeTermsParse | src/stores/diceStore.ts:32-51 | the text written for 4df, 2 parses to four six-sided dice with modifier 2 and the Fudge flag |
| Formula.ExampleSpaced | src/stores/diceStore.ts:32-51 | `2d6 + 1D8 + 5` parses to 2d6 and 1d8 with modifier 5 and no Fudge flag |
| Formula.ExampleFudgeUpper | src/stores/diceStore.ts:32-51 | `4dF+2` parses to four six-sided dice with modifier 2 and the Fudge flag |
| DiceExpansion.ExpandRolls | src/components/Dice3DLayer.tsx:39-41 | the dice requested are as many as the groups' counts add up to, each in the skin colour and with the faces of some group |
| DiceExpansion.ExpandOne | src/components/Dice3DLayer.tsx:40 | one group gives as many identical dice as its quantity, or none when the quantity is NaN or negative |
| DiceExpansion.DiceCount | src/components/Dice3DLayer.tsx:39-41 | no dice are requested exactly when every group's array length is zero |
| DiceExpansion.ExpandAppend | src/components/Dice3DLayer.tsx:39-41 | expanding two lists of groups in a row concatenates their dice and adds their counts |
| DiceStore.PerformSystemRoll | src/stores/diceStore.ts:58-80 | a rejected formula leaves the state unchanged; an accepted one marks the store rolling, keeps the last result, and stores the request with the given id, formula, parsed groups, modifier, Fudge flag, author, label, public visibility, skin colours and default theme |
| DiceStore.TotalQty | src/stores/diceStore.ts:63 | the quantity total is NaN exactly when some group's quantity is NaN; no groups total 0 and one group totals its own quantity, negative ones included, so with `DiceStore.TotalQtyAppend` it is the signed sum of the quantities |
| DiceStore.Dispatch | src/stores/diceStore.ts:72-79 | the store becomes rolling, keeps its last result, and holds a request with the given id, formula, groups, modifier, Fudge flag, author, label, public visibility, skin colours and default theme |
| DiceStore.TotalQtyAppend | src/stores/diceStore.ts:63 | the total of two lists of groups is defined exactly when both totals are, and is then their sum |
| DiceStore.AcceptedRequestShape | src/stores/diceStore.ts:61-64 | an accepted roll has at least one group, and its quantity total is NaN or at most 20 |
| DiceStore.NaNQuantityPassesGate | src/stores/diceStore.ts:63-64 | a group with a NaN quantity makes the cap test false, so the roll is accepted |
| DiceStore.CapEnforced | src/stores/diceStore.ts:63-64 | with every quantity defined and a total above 20, the roll is refused and nothing changes |
| DiceStore.SecondRollSupersedes | src/stores/diceStore.ts:72-79 | a second accepted roll replaces the pending request of the first |
| DiceStore.Sum | src/stores/diceStore.ts:87 | no values sum to 0 and one value sums to itself; with `DiceStore.SumAppend` this fixes the sum of any list |
| DiceStore.SumAppend | src/stores/diceStore.ts:87 | the sum of two lists of values in a row is the sum of their sums |
| DiceStore.ModText | src/stores/diceStore.ts:89 | the modifier text is empty exactly when the modifier is not positive; otherwise it is `+ ` followed by a canonical numeral that parseInt reads back as the modifier, which by `JsText.CanonicalNumeralIsRendering` is exactly the modifier's rendering |
| DiceStore.Numerals | src/stores/diceStore.ts:89 | the values as `join` writes them: one canonical numeral per value, in order, each reading back as its value, so each is exactly that value's rendering |
| DiceStore.Breakdown | src/stores/diceStore.ts:89 | the breakdown opens with `(` and ends with ` = ` followed by the total, which parseInt reads back |
| DiceStore.BreakdownReadBack | src/stores/diceStore.ts:89 | the breakdown is `(`, the ` + `-joined values, `) `, the modifier text, ` = ` and the total; the value list is empty for no values and otherwise reads back as the values in order, the modifier text is empty exactly when the modifier is not positive and otherwise reads back as the modifier, and the total reads back as the total; with the canonical-numeral contracts of `DiceStore.Numerals` and `DiceStore.ModText` each slot is the exact rendering |
| DiceStore.FinalizeDiceRoll | src/stores/diceStore.ts:82-101 | with nothing pending nothing changes; otherwise the store becomes idle with no request, and publishes a neutral public result whose total is the sum of the values plus the modifier, carrying the request's formula, author and label and the breakdown text, with die type MIXED and author id "local-user" |
| DiceStore.FinalizeOnce | src/stores/diceStore.ts:83-84 | finalising a second time does nothing |
| DiceStore.FudgeSummedRaw | src/stores/diceStore.ts:87-88 | Fudge faces 1, 3, 5, 6 total 15, because raw faces are summed without mapping to -1, 0, +1 |
| DiceStore.BreakdownListReadBack | src/stores/diceStore.ts:89 | the ` + `-joined value list of the breakdown, read back by removing whitespace, splitting on `+` and parseInt, gives the values |
| DiceStore.SpacedListReadBack | src/stores/diceStore.ts:89 | parts that need no normalising and hold no `+`, joined with ` + `, come back unchanged from whitespace removal and a split on `+` |
| DiceStore.RollCycle | src/stores/diceStore.ts:58-101 | an accepted roll followed by its results leaves the store idle, with the sum plus the modifier as the result for that formula |
| DiceStore.RejectedStaysIdle | src/stores/diceStore.ts:61-64 | from idle, a rejected roll followed by any results changes nothing |
| DiceStore.TotalQtyCountsDice | src/stores/diceStore.ts:63 | with every quantity a non-negative number, the quantity total equals the number of dice dispatched |
| DiceStore.CapBypassedByNegativeQuantity | src/stores/diceStore.ts:63-64 | `-1d6+21d6` is accepted from the initial state although 21 dice are dispatched |
| DiceStore.BypassCounts | src/stores/diceStore.ts:63 | the groups -1d6 and 21d6 total 20 but dispatch 21 dice |
| DiceStore.BypassParse | src/stores/diceStore.ts:32-51 | `-1d6+21d6` parses to a group of -1 and a group of 21 six-sided dice, with modifier 0 and no Fudge flag |
| DiceStore.BypassTermsParse | src/stores/diceStore.ts:32-51 | the text written for -1d6, 21d6 parses to those two groups with modifier 0 and no Fudge flag |
| DiceStore.BypassText | src/stores/diceStore.ts:32-51 | `-1d6+21d6` is the text written for -1d6, 21d6 |
| DiceStore.BypassMeaning | src/stores/diceStore.ts:32-51 | the reference meaning of -1d6, 21d6 is those two groups with no modifier |
| DiceStore.PerformSystemRollCapped | src/stores/diceStore.ts:63-64 | a corrected cap on the dice actually dispatched: an accepted roll has at least one group and sends at most 20 dice to the physics engine |
| DiceStore.CappedAgreesOnCountableQuantities | src/stores/diceStore.ts:63-64 | when every quantity is a non-negative number, the corrected cap accepts and rejects exactly as the original |

## Left out

- The `system` argument of `performSystemRoll` is left out, because the code never reads it.
- The skin lookup from the user store becomes a `Skin` parameter. The store's skin table lives in the user store, which is not part of this model.
- The request id `roll-${Date.now()}` becomes an `id` parameter, because the clock is I/O.
- The physics engine, its asynchronous callback, the 3D canvas, audio, the UI and persistence are left out. The values the engine reports are the parameter of `finalizeDiceRoll`.
- Numbers are unbounded integers. Floating-point precision, exponent rendering of very large numbers, and the `RangeError` of `Array.from` for huge lengths are not modelled.
- JsText.ParseIntPrefix: reads decimal digits only. It does not model parseInt's leading-whitespace skip, because whitespace is already removed before every call. It also does not model the hexadecimal `0x` prefix, because a formula containing `x` is not in any notation the program supports.
- JsText.Normalize: treats only ASCII whitespace as `\s` and lower-cases only ASCII letters. Unicode spaces and letters are not modelled.

## Findings

| source | as written | input that shows it | evidently intended | confidence | as-written member | corrected member |
|---|---|---|---|---|---|---|
| src/stores/diceStore.ts:63-64 | the 20-dice cap compares the plain sum of group quantities with 20, and NaN compares false | `-1d6+21d6` sums to 20 and is accepted, yet 21 dice are dispatched; `xdf+30d6` has a NaN total and is accepted with 30 dice | no more than 20 dice are ever sent to the physics engine | not executed | DiceStore.CapBypassedByNegativeQuantity | DiceStore.PerformSystemRollCapped |

=== FILE: dice_expansion.dfy ===
/** The per-die expansion the 3D layer performs before handing a pending
    request to the physics engine: a group of quantity N becomes N entries
    with `sides = faces`. */
module DiceExpansion {
  import opened Wrappers
  import opened Formula

  /** One `{ sides, themeColor }` entry; None for sides is a NaN face count. */
  datatype DieRequest = DieRequest(sides: Option<int>, themeColor: string)

  /** The length `Array.from({ length: qty })` creates: a NaN or negative
      quantity gives no entries. */
  function ArrayLength(qty: Option<int>): (n: nat) {
    if qty.Some? && qty.value > 0 then qty.value else 0
  }

  /** How many dice a list of groups actually puts on the table. */
  function DiceCount(rolls: seq<ParsedRoll>): (n: nat)
    ensures n == 0 <==> forall k :: 0 <= k < |rolls| ==> ArrayLength(rolls[k].qty) == 0
  {
    if |rolls| == 0 then 0
    else
      var front := rolls[..|rolls| - 1];
      assert forall k :: 0 <= k < |front| ==> front[k] == rolls[k];
      DiceCount(front) + ArrayLength(rolls[|rolls| - 1].qty)
  }

  /** `rolls.flatMap(roll => Array.from({ length: roll.qty }, () => ({ sides: roll.faces, themeColor })))` */
  function ExpandRolls(rolls: seq<ParsedRoll>, themeColor: string): (dice: seq<DieRequest>)
    ensures |dice| == DiceCount(rolls)
    ensures forall k :: 0 <= k < |dice| ==> dice[k].themeColor == themeColor
    ensures forall k :: 0 <= k < |dice| ==> exists j :: 0 <= j < |rolls| && dice[k].sides == rolls[j].faces
  {
    if |rolls| == 0 then []
    else
      var front := rolls[..|rolls| - 1];
      var last := rolls[|rolls| - 1];
      var earlier := ExpandRolls(front, themeColor);
      assert forall j :: 0 <= j < |front| ==> front[j] == rolls[j];
      earlier + seq(ArrayLength(last.qty), _ => DieRequest(last.faces, themeColor))
  }

  /** The expansion of one group: exactly `qty` copies of its face count. */
  lemma ExpandOne(roll: ParsedRoll, themeColor: string)
    ensures ExpandRolls([roll], themeColor) == seq(ArrayLength(roll.qty), _ => DieRequest(roll.faces, themeColor))
  {
    assert [roll][..0] == [];
  }

  /** Groups expand in order: the dice of earlier groups come first. */
  lemma {:induction false} ExpandAppend(a: seq<ParsedRoll>, b: seq<ParsedRoll>, themeColor: string)
    ensures ExpandRolls(a + b, themeColor) == ExpandRolls(a, themeColor) + ExpandRolls(b, themeColor)
    ensures DiceCount(a + b) == DiceCount(a) + DiceCount(b)
    decreases |b|
  {
    if |b| == 0 {
      assert a + b == a;
    } else {
      var front := b[..|b| - 1];
      assert (a + b)[..|a + b| - 1] == a + front;
      assert (a + b)[|a + b| - 1] == b[|b| - 1];
      ExpandAppend(a, front, themeColor);
    }
  }
}

=== FILE: dice_store.dfy ===
/** The dice store: its state `{ isRolling, lastResult, pendingRollRequest }`
    and its two actions, `performSystemRoll` (IDLE -> ROLLING) and
    `finalizeDiceRoll` (ROLLING -> IDLE), as functions from state to state. */
module DiceStore {
  import opened Wrappers
  import opened JsText
  import opened Formula
  import opened DiceExpansion

  datatype Visibility = Public | Private

  datatype Outcome = Neutral | CriticalSuccess | CriticalFailure

  /** `RollResult.dieType`: a face count or the Fudge marker in the type;
      the store always writes `"MIXED"`. */
  datatype DieType = Sides(faces: int) | FudgeDie | Mixed

  /** The two colours the skin lookup yields; the lookup itself is opaque here. */
  datatype Skin = Skin(skinColor: string, textColor: string)

  datatype PendingRollRequest = PendingRollRequest(
    id: string,
    formula: string,
    rolls: seq<ParsedRoll>,
    mod: int,
    isFudge: bool,
    authorName: string,
    labelText: string,
    visibility: Visibility,
    skinColor: string,
    theme: string,
    textColor: string)

  datatype RollResult = RollResult(
    total: int,
    formula: string,
    breakdown: string,
    dieType: DieType,
    outcome: Outcome,
    authorName: string,
    authorId: string,
    labelText: string,
    visibility: Visibility)

  datatype DiceState = DiceState(
    isRolling: bool,
    lastResult: Option<RollResult>,
    pending: Option<PendingRollRequest>)

  const InitialState := DiceState(false, None, None)

  /** Largest total quantity a roll may request. */
  const MaxTotalQty := 20

  const DefaultTheme := "default"
  const LocalAuthorId := "local-user"

  // ---------------------------------------------------------------------
  // performSystemRoll
  // ---------------------------------------------------------------------

  /** `rolls.reduce((sum, roll) => sum + roll.qty, 0)`: the sum is NaN
      exactly when some quantity is NaN. */
  function TotalQty(rolls: seq<ParsedRoll>): (t: Option<int>)
    ensures t.None? <==> exists k :: 0 <= k < |rolls| && rolls[k].qty.None?
    ensures |rolls| == 0 ==> t == Some(0)
    ensures |rolls| == 1 ==> t == rolls[0].qty
  {
    if |rolls| == 0 then Some(0)
    else
      var frontRolls := rolls[..|rolls| - 1];
      var front := TotalQty(frontRolls);
      assert forall k :: 0 <= k < |frontRolls| ==> frontRolls[k] == rolls[k];
      var qty := rolls[|rolls| - 1].qty;
      if front.Some? && qty.Some? then Some(front.value + qty.value) else None
  }

  /** `totalQty > 20`, which is false for NaN. */
  predicate OverCap(total: Option<int>) {
    total.Some? && total.value > MaxTotalQty
  }

  /** The guard of `performSystemRoll`: no groups, or too many dice. */
  predicate Rejected(p: ParsedFormula) {
    |p.rolls| == 0 || OverCap(TotalQty(p.rolls))
  }

  /** The ROLLING state holding a fresh request; `lastResult` is carried over. */
  function Dispatch(s: DiceState, formula: string, p: ParsedFormula, labelText: string,
                    authorName: string, id: string, skin: Skin): (r: DiceState)
    ensures r.isRolling && r.lastResult == s.lastResult && r.pending.Some?
    ensures var q := r.pending.value;
      && q.id == id && q.formula == formula
      && q.rolls == p.rolls && q.mod == p.mod && q.isFudge == p.isFudge
      && q.authorName == authorName && q.labelText == labelText && q.visibility == Public
      && q.skinColor == skin.skinColor && q.textColor == skin.textColor && q.theme == DefaultTheme
  {
    s.(isRolling := true,
       pending := Some(PendingRollRequest(id, formula, p.rolls, p.mod, p.isFudge, authorName, labelText,
                                          Public, skin.skinColor, DefaultTheme, skin.textColor)))
  }

  /** `performSystemRoll(system, formula, label, authorName)` with the clock
      reading as `id` and the skin colours as `skin`. */
  function PerformSystemRoll(s: DiceState, formula: string, labelText: string, authorName: string,
                             id: string, skin: Skin): (r: DiceState)
    ensures Rejected(ParseComplexFormula(formula)) ==> r == s
    ensures !Rejected(ParseComplexFormula(formula)) ==>
      var p := ParseComplexFormula(formula);
      && r.isRolling
      && r.lastResult == s.lastResult
      && r.pending.Some?
      && r.pending.value.id == id
      && r.pending.value.formula == formula
      && r.pending.value.rolls == p.rolls
      && r.pending.value.mod == p.mod
      && r.pending.value.isFudge == p.isFudge
      && r.pending.value.authorName == authorName
      && r.pending.value.labelText == labelText
      && r.pending.value.visibility == Public
      && r.pending.value.skinColor == skin.skinColor
      && r.pending.value.textColor == skin.textColor
      && r.pending.value.theme == DefaultTheme
  {
    var p := ParseComplexFormula(formula);
    if Rejected(p) then s else Dispatch(s, formula, p, labelText, authorName, id, skin)
  }

  /** The sum of the quantities over a concatenation. */
  lemma {:induction false} TotalQtyAppend(a: seq<ParsedRoll>, b: seq<ParsedRoll>)
    ensures TotalQty(a + b).Some? <==> TotalQty(a).Some? && TotalQty(b).Some?
    ensures TotalQty(a + b).Some? ==> TotalQty(a + b).value == TotalQty(a).value + TotalQty(b).value
    decreases |b|
  {
    if |b| == 0 {
      assert a + b == a;
    } else {
      var front := b[..|b| - 1];
      assert (a + b)[..|a + b| - 1] == a + front;
      assert (a + b)[|a + b| - 1] == b[|b| - 1];
      TotalQtyAppend(a, front);
    }
  }

  /** A request that gets through the guard has groups, and either a NaN
      quantity or at most 20 dice in total. */
  lemma AcceptedRequestShape(s: DiceState, formula: string, labelText: string, authorName: string,
                             id: string, skin: Skin)
    requires PerformSystemRoll(s, formula, labelText, authorName, id, skin) != s
    ensures var p := ParseComplexFormula(formula);
      && |p.rolls| > 0
      && (TotalQty(p.rolls).None? <==> exists k :: 0 <= k < |p.rolls| && p.rolls[k].qty.None?)
      && (TotalQty(p.rolls).Some? ==> TotalQty(p.rolls).value <= MaxTotalQty)
  {
  }

  /** A single NaN quantity makes the sum NaN, and the guard lets the roll
      through however many dice the other groups ask for. */
  lemma NaNQuantityPassesGate(s: DiceState, formula: string, labelText: string, authorName: string,
                              id: string, skin: Skin, k: nat)
    requires k < |ParseComplexFormula(formula).rolls| && ParseComplexFormula(formula).rolls[k].qty.None?
    ensures PerformSystemRoll(s, formula, labelText, authorName, id, skin).isRolling
    ensures PerformSystemRoll(s, formula, labelText, authorName, id, skin).pending.Some?
  {
    var p := ParseComplexFormula(formula);
    assert TotalQty(p.rolls).None?;
    assert !Rejected(p);
  }

  /** With numeric quantities only, more than 20 dice never produce a request. */
  lemma CapEnforced(s: DiceState, formula: string, labelText: string, authorName: string,
                    id: string, skin: Skin)
    requires forall k :: 0 <= k < |ParseComplexFormula(formula).rolls| ==> ParseComplexFormula(formula).rolls[k].qty.Some?
    requires TotalQty(ParseComplexFormula(formula).rolls).Some? ==> TotalQty(ParseComplexFormula(formula).rolls).value > MaxTotalQty
    ensures PerformSystemRoll(s, formula, labelText, authorName, id, skin) == s
  {
  }

  /** A second accepted roll replaces the first request; nothing rejects it. */
  lemma SecondRollSupersedes(s: DiceState, f1: string, f2: string, labelText: string, authorName: string,
                             id1: string, id2: string, skin: Skin)
    requires !Rejected(ParseComplexFormula(f1)) && !Rejected(ParseComplexFormula(f2))
    ensures var r := PerformSystemRoll(PerformSystemRoll(s, f1, labelText, authorName, id1, skin),
                                       f2, labelText, authorName, id2, skin);
      r == PerformSystemRoll(s, f2, labelText, authorName, id2, skin)
  {
  }

  // ---------------------------------------------------------------------
  // finalizeDiceRoll
  // ---------------------------------------------------------------------

  /** `values.reduce((a, b) => a + b, 0)`. With `SumAppend` this fixes it as
      the total of all the values in any grouping. */
  function Sum(values: seq<int>): (r: int)
    ensures |values| == 0 ==> r == 0
    ensures |values| == 1 ==> r == values[0]
  {
    if |values| == 0 then 0 else Sum(values[..|values| - 1]) + values[|values| - 1]
  }

  lemma {:induction false} SumAppend(a: seq<int>, b: seq<int>)
    ensures Sum(a + b) == Sum(a) + Sum(b)
    decreases |b|
  {
    if |b| == 0 {
      assert a + b == a;
    } else {
      var front := b[..|b| - 1];
      assert (a + b)[..|a + b| - 1] == a + front;
      assert (a + b)[|a + b| - 1] == b[|b| - 1];
      SumAppend(a, front);
    }
  }

  /** Each value as `join` writes it: the canonical numeral that parseInt
      reads back as that value (`CanonicalNumeralIsRendering` shows there is
      only one). */
  function Numerals(values: seq<int>): (ns: seq<string>)
    ensures |ns| == |values|
    ensures forall k :: 0 <= k < |values| ==>
      CanonicalNumeral(ns[k]) && ParseIntPrefix(ns[k]) == Some(values[k])
  {
    var ns := seq(|values|, k requires 0 <= k < |values| => IntToString(values[k]));
    assert forall k :: 0 <= k < |values| ==>
      CanonicalNumeral(ns[k]) && ParseIntPrefix(ns[k]) == Some(values[k]) by {
      forall k | 0 <= k < |values|
        ensures CanonicalNumeral(ns[k]) && ParseIntPrefix(ns[k]) == Some(values[k])
      {
        IntToStringCanonical(values[k]);
        ParseIntOfIntToString(values[k], "");
        assert IntToString(values[k]) + "" == IntToString(values[k]);
      }
    }
    ns
  }

  /** `mod > 0 ? "+ " + mod : ""` */
  function ModText(mod: int): (t: string)
    ensures t == "" <==> mod <= 0
    ensures mod > 0 ==> |t| > 2 && t[..2] == "+ " && CanonicalNumeral(t[2..])
                        && ParseIntPrefix(t[2..]) == Some(mod)
  {
    if mod > 0 then
      var t := "+ " + IntToString(mod);
      assert t[2..] == IntToString(mod) + "";
      ParseIntOfIntToString(mod, "");
      IntToStringCanonical(mod);
      t
    else ""
  }

  /** `(${values.join(" + ")}) ${modText} = ${total}` */
  function Breakdown(values: seq<int>, mod: int, total: int): (b: string)
    ensures |b| > 0 && b[0] == '('
    ensures var n := IntToString(total);
      && |b| >= |n| + 3
      && b[|b| - |n| - 3..|b| - |n|] == " = "
      && ParseIntPrefix(b[|b| - |n|..]) == Some(total)
  {
    var n := IntToString(total);
    var b := "(" + Join(Numerals(values), " + ") + ") " + ModText(mod) + " = " + n;
    assert b[|b| - |n|..] == n + "";
    ParseIntOfIntToString(total, "");
    b
  }

  /** The breakdown is the parenthesised ` + `-joined values, the modifier
      text and ` = ` with the total; each slot reads back as what it shows:
      the values in order, the modifier only when it is positive, the total. */
  lemma BreakdownReadBack(values: seq<int>, mod: int, total: int)
    ensures var list, m, n := Join(Numerals(values), " + "), ModText(mod), IntToString(total);
      && Breakdown(values, mod, total) == "(" + list + ") " + m + " = " + n
      && (|values| == 0 ==> list == "")
      && (|values| > 0 ==>
            var pieces := SplitOn(Normalize(list), "+");
            && |pieces| == |values|
            && forall k :: 0 <= k < |values| ==> ParseIntPrefix(pieces[k]) == Some(values[k]))
      && (m == "" <==> mod <= 0)
      && (mod > 0 ==> |m| > 2 && m[..2] == "+ " && ParseIntPrefix(m[2..]) == Some(mod))
      && ParseIntPrefix(n) == Some(total)
  {
    if |values| > 0 {
      BreakdownListReadBack(values);
    }
    ParseIntOfIntToString(total, "");
    assert IntToString(total) + "" == IntToString(total);
  }

  /** `finalizeDiceRoll(physicsResults)` */
  function FinalizeDiceRoll(s: DiceState, physicsResults: seq<int>): (r: DiceState)
    ensures s.pending.None? ==> r == s
    ensures s.pending.Some? ==>
      var p := s.pending.value;
      && !r.isRolling
      && r.pending.None?
      && r.lastResult.Some?
      && r.lastResult.value.total == Sum(physicsResults) + p.mod
      && r.lastResult.value.outcome == Neutral
      && r.lastResult.value.formula == p.formula
      && r.lastResult.value.authorName == p.authorName
      && r.lastResult.value.labelText == p.labelText
      && r.lastResult.value.visibility == Public
      && r.lastResult.value.dieType == Mixed
      && r.lastResult.value.authorId == LocalAuthorId
      && r.lastResult.value.breakdown == Breakdown(physicsResults, p.mod, r.lastResult.value.total)
  {
    match s.pending
    case None => s
    case Some(p) =>
      var total := Sum(physicsResults) + p.mod;
      var result := RollResult(total, p.formula, Breakdown(physicsResults, p.mod, total), Mixed,
                               Neutral, p.authorName, LocalAuthorId, p.labelText, Public);
      DiceState(false, Some(result), None)
  }

  /** Resolving twice changes nothing the second time: the pending request is consumed. */
  lemma FinalizeOnce(s: DiceState, first: seq<int>, second: seq<int>)
    ensures FinalizeDiceRoll(FinalizeDiceRoll(s, first), second) == FinalizeDiceRoll(s, first)
  {
  }

  /** Fudge dice are summed as raw face values, with no mapping to -1/0/+1:
      the faces 1, 3, 5, 6 total 15. */
  lemma FudgeSummedRaw(s: DiceState, values: seq<int>)
    requires s.pending.Some? && s.pending.value.isFudge && s.pending.value.mod == 0
    requires values == [1, 3, 5, 6]
    ensures FinalizeDiceRoll(s, values).lastResult.value.total == 15
  {
    assert values[..3] == [1, 3, 5];
    assert values[..3][..2] == [1, 3];
    assert values[..3][..2][..1] == [1];
    assert values[..3][..2][..1][..0] == [];
    assert Sum(values[..3][..2][..1]) == 1;
    assert Sum(values[..3][..2]) == 4;
    assert Sum(values[..3]) == 9;
    assert Sum(values) == 15;
  }

  /** The parenthesised list of the breakdown, read back with the formula
      tokenizer (whitespace dropped, split on `+`, `parseInt` per piece),
      gives the rolled values in order. */
  lemma BreakdownListReadBack(values: seq<int>)
    requires |values| >= 1
    ensures var pieces := SplitOn(Normalize(Join(Numerals(values), " + ")), "+");
      && |pieces| == |values|
      && forall k :: 0 <= k < |values| ==> ParseIntPrefix(pieces[k]) == Some(values[k])
  {
    var ns := Numerals(values);
    forall k | 0 <= k < |ns| ensures IsNormal(ns[k]) && !Includes(ns[k], "+") {
      NumeralExcludes(values[k], "+");
    }
    SpacedListReadBack(ns);
  }

  /** Parts that need no normalising and hold no `+`, joined with ` + `,
      come back unchanged from whitespace removal and a split on `+`. */
  lemma SpacedListReadBack(ns: seq<string>)
    requires |ns| >= 1
    requires forall k :: 0 <= k < |ns| ==> IsNormal(ns[k]) && !Includes(ns[k], "+")
    ensures SplitOn(Normalize(Join(ns, " + ")), "+") == ns
  {
    NormalizeJoin(ns, " + ");
    assert Normalize(" + ") == "+";
    SplitJoin(ns, '+');
  }

  // ---------------------------------------------------------------------
  // The IDLE -> ROLLING -> IDLE cycle
  // ---------------------------------------------------------------------

  predicate Idle(s: DiceState) { !s.isRolling && s.pending.None? }

  /** An accepted roll resolved with some values returns the store to idle,
      publishing the total of those values plus the modifier. */
  lemma RollCycle(s: DiceState, formula: string, labelText: string, authorName: string,
                  id: string, skin: Skin, values: seq<int>)
    requires !Rejected(ParseComplexFormula(formula))
    ensures var rolling := PerformSystemRoll(s, formula, labelText, authorName, id, skin);
      var done := FinalizeDiceRoll(rolling, values);
      && rolling.isRolling
      && Idle(done)
      && done.lastResult.Some?
      && done.lastResult.value.total == Sum(values) + ParseComplexFormula(formula).mod
      && done.lastResult.value.formula == formula
  {
  }

  /** From idle, a rejected formula leaves nothing for `finalizeDiceRoll` to resolve. */
  lemma RejectedStaysIdle(s: DiceState, formula: string, labelText: string, authorName: string,
                          id: string, skin: Skin, values: seq<int>)
    requires Idle(s) && Rejected(ParseComplexFormula(formula))
    ensures FinalizeDiceRoll(PerformSystemRoll(s, formula, labelText, authorName, id, skin), values) == s
  {
  }

  // ---------------------------------------------------------------------
  // The cap as dispatched: negative and NaN quantities
  // ---------------------------------------------------------------------

  /** With numeric, non-negative quantities the guard's sum is the number of dice dispatched. */
  lemma {:induction false} TotalQtyCountsDice(rolls: seq<ParsedRoll>)
    requires forall k :: 0 <= k < |rolls| ==> rolls[k].qty.Some? && rolls[k].qty.value >= 0
    ensures TotalQty(rolls) == Some(DiceCount(rolls))
    decreases |rolls|
  {
    if |rolls| > 0 {
      var front := rolls[..|rolls| - 1];
      assert forall k :: 0 <= k < |front| ==> front[k] == rolls[k];
      TotalQtyCountsDice(front);
    }
  }

  /** As written, the guard sums signed quantities: `performSystemRoll` on
      `"-1d6+21d6"` from the initial state totals 20 and is accepted, and the
      3D layer then throws 21 dice. The formula is a parameter pinned by the
      precondition, as in the other worked examples. */
  lemma CapBypassedByNegativeQuantity(formula: string, labelText: string, authorName: string,
                                      id: string, skin: Skin)
    requires formula == "-1d6+21d6"
    ensures var r := PerformSystemRoll(InitialState, formula, labelText, authorName, id, skin);
      && r.pending.Some?
      && DiceCount(r.pending.value.rolls) == 21
  {
    BypassParse(formula);
    var p := ParseComplexFormula(formula);
    BypassCounts(p.rolls);
    assert !Rejected(p);
  }

  /** `-1d6+21d6` parses to a group of -1 and a group of 21 six-sided dice. */
  lemma BypassParse(formula: string)
    requires formula == "-1d6+21d6"
    ensures ParseComplexFormula(formula)
         == ParsedFormula([ParsedRoll(Some(-1), Some(6)), ParsedRoll(Some(21), Some(6))], 0, false)
  {
    var ts := [Dice(-1, 6), Dice(21, 6)];
    BypassText(formula);
    BypassTermsParse(ts);
  }

  /** The text written for the terms -1d6, 21d6 parses to those two groups. */
  lemma BypassTermsParse(ts: seq<TermSpec>)
    requires ts == [Dice(-1, 6), Dice(21, 6)]
    ensures ParseComplexFormula(FormulaText(ts))
         == ParsedFormula([ParsedRoll(Some(-1), Some(6)), ParsedRoll(Some(21), Some(6))], 0, false)
  {
    ParseFormulaText(ts);
    BypassMeaning(ts);
  }

  /** The groups -1d6 and 21d6: the guard's total is 20, yet 21 dice are dispatched. */
  lemma BypassCounts(rolls: seq<ParsedRoll>)
    requires rolls == [ParsedRoll(Some(-1), Some(6)), ParsedRoll(Some(21), Some(6))]
    ensures TotalQty(rolls) == Some(20) && DiceCount(rolls) == 21
  {
    assert rolls[..1] == [ParsedRoll(Some(-1), Some(6))];
    assert rolls[..1][..0] == [];
    assert TotalQty(rolls[..1]) == Some(-1);
    assert DiceCount(rolls[..1]) == 0;
  }

  /** `"-1d6+21d6"` is the text written for the terms -1d6, 21d6. */
  lemma BypassText(text: string)
    requires text == "-1d6+21d6"
    ensures text == FormulaText([Dice(-1, 6), Dice(21, 6)])
  {
    var ts := [Dice(-1, 6), Dice(21, 6)];
    assert RenderTerm(Dice(-1, 6)) == "-1d6";
    assert RenderTerm(Dice(21, 6)) == "21d6";
    assert RenderTerms(ts) == ["-1d6", "21d6"];
    assert ["-1d6", "21d6"][1..] == ["21d6"];
  }

  /** The reference meaning of the terms -1d6, 21d6. */
  lemma BypassMeaning(ts: seq<TermSpec>)
    requires ts == [Dice(-1, 6), Dice(21, 6)]
    ensures Intended(ts) == ParsedFormula([ParsedRoll(Some(-1), Some(6)), ParsedRoll(Some(21), Some(6))], 0, false)
  {
    assert ts[..1] == [Dice(-1, 6)];
    assert ts[..1][..0] == [];
    assert Intended(ts[..1]) == ParsedFormula([ParsedRoll(Some(-1), Some(6))], 0, false);
  }

  /** The guard as evidently intended: count the dice the request will
      actually dispatch, so that no accepted request throws more than 20. */
  function PerformSystemRollCapped(s: DiceState, formula: string, labelText: string, authorName: string,
                                   id: string, skin: Skin): (r: DiceState)
    ensures r != s ==> r.pending.Some? && 0 < |r.pending.value.rolls|
                       && DiceCount(r.pending.value.rolls) <= MaxTotalQty
                       && |ExpandRolls(r.pending.value.rolls, skin.skinColor)| <= MaxTotalQty
  {
    var p := ParseComplexFormula(formula);
    if |p.rolls| == 0 || DiceCount(p.rolls) > MaxTotalQty then s
    else Dispatch(s, formula, p, labelText, authorName, id, skin)
  }

  /** On formulas whose quantities are numbers and not negative, the
      corrected guard behaves exactly as the written one. */
  lemma CappedAgreesOnCountableQuantities(s: DiceState, formula: string, labelText: string,
                                          authorName: string, id: string, skin: Skin)
    requires forall k :: 0 <= k < |ParseComplexFormula(formula).rolls| ==>
               ParseComplexFormula(formula).rolls[k].qty.Some? && ParseComplexFormula(formula).rolls[k].qty.value >= 0
    ensures PerformSystemRollCapped(s, formula, labelText, authorName, id, skin)
         == PerformSystemRoll(s, formula, labelText, authorName, id, skin)
  {
    TotalQtyCountsDice(ParseComplexFormula(formula).rolls);
  }
}

=== FILE: formula.dfy ===
/** `parseComplexFormula`: dice notation such as `2d6+1d8+5` or `4dF+2`
    turned into dice groups, an integer modifier and a Fudge flag. */
module Formula {
  import opened Wrappers
  import opened JsText

  /** One `{qty, faces}` group; None stands for a NaN that `parseInt` produced. */
  datatype ParsedRoll = ParsedRoll(qty: Option<int>, faces: Option<int>)

  datatype ParsedFormula = ParsedFormula(rolls: seq<ParsedRoll>, mod: int, isFudge: bool)

  /** What one `+`-separated term contributes. */
  datatype Term = FudgeTerm(roll: ParsedRoll) | DiceTerm(roll: ParsedRoll) | ModTerm(value: int)

  /** Quantity of a Fudge term written without one (`dF`). */
  const DefaultFudgeQty := 4
  /** Fudge dice are thrown as six-sided dice. */
  const FudgeFaces := 6
  /** Quantity of a standard term whose quantity is missing, zero or unreadable. */
  const DefaultDiceQty := 1

  const EmptyFormula := ParsedFormula([], 0, false)

  /** `v || d` on a `parseInt` result: NaN and 0 are falsy. */
  function OrElse(v: Option<int>, d: int): (r: int)
    ensures r == d || v == Some(r)
    ensures v.Some? && v.value != 0 ==> r == v.value
    ensures r == 0 ==> d == 0
  {
    if v.Some? && v.value != 0 then v.value else d
  }

  /** The body of the loop over terms: `df` is looked for before `d`; only the
      text before the first `df`, or the first two `d`-separated pieces, are read. */
  function ClassifyTerm(part: string): (t: Term)
    ensures t.FudgeTerm? <==> Includes(part, "df")
    ensures t.DiceTerm? <==> !Includes(part, "df") && Includes(part, "d")
    ensures t.FudgeTerm? ==> t.roll.faces == Some(FudgeFaces)
    ensures t.DiceTerm? ==> t.roll.qty.Some? && t.roll.qty.value != 0
  {
    if Includes(part, "df") then
      var qtyStr := SplitOn(part, "df")[0];
      FudgeTerm(ParsedRoll(if qtyStr == "" then Some(DefaultFudgeQty) else ParseIntPrefix(qtyStr), Some(FudgeFaces)))
    else if Includes(part, "d") then
      var pieces := SplitOn(part, "d");
      DiceTerm(ParsedRoll(Some(OrElse(ParseIntPrefix(pieces[0]), DefaultDiceQty)), ParseIntPrefix(pieces[1])))
    else
      ModTerm(OrElse(ParseIntPrefix(part), 0))
  }

  /** One iteration of the loop: push the group (and set the flag) or add to the modifier. */
  function Step(acc: ParsedFormula, t: Term): (r: ParsedFormula) {
    match t
    case FudgeTerm(r) => acc.(rolls := acc.rolls + [r], isFudge := true)
    case DiceTerm(r) => acc.(rolls := acc.rolls + [r])
    case ModTerm(v) => acc.(mod := acc.mod + v)
  }

  /** The loop over the terms, in order. */
  function ParseTerms(parts: seq<string>): (p: ParsedFormula)
    ensures |p.rolls| <= |parts|
  {
    if |parts| == 0 then EmptyFormula
    else Step(ParseTerms(parts[..|parts| - 1]), ClassifyTerm(parts[|parts| - 1]))
  }

  /** The terms of a formula: whitespace removed, lower-cased, split on `+`. */
  function Terms(formula: string): (ts: seq<string>)
    ensures |ts| >= 1
  {
    SplitOn(Normalize(formula), "+")
  }

  /** `parseComplexFormula(formula)` */
  function ParseComplexFormula(formula: string): (p: ParsedFormula)
    ensures |p.rolls| <= |Terms(formula)|
    ensures p.isFudge <==> exists k :: 0 <= k < |Terms(formula)| && Includes(Terms(formula)[k], "df")
  {
    FudgeFlagIffFudgeTerm(Terms(formula));
    ParseTerms(Terms(formula))
  }

  /** The Fudge flag is set exactly when some term contains `df`. */
  lemma FudgeFlagIffFudgeTerm(parts: seq<string>)
    ensures ParseTerms(parts).isFudge <==> exists k :: 0 <= k < |parts| && Includes(parts[k], "df")
  {
    if ParseTerms(parts).isFudge {
      var k := FudgeTermOfFlag(parts);
    } else {
      NoFudgeTermWithoutFlag(parts);
    }
  }

  /** A set Fudge flag points at a term containing `df`. */
  lemma {:induction false} FudgeTermOfFlag(parts: seq<string>) returns (k: nat)
    requires ParseTerms(parts).isFudge
    ensures k < |parts| && Includes(parts[k], "df")
    decreases |parts|
  {
    FudgeFlagStep(parts);
    var front := parts[..|parts| - 1];
    if ParseTerms(front).isFudge {
      k := FudgeTermOfFlag(front);
      assert parts[k] == front[k];
    } else {
      k := |parts| - 1;
    }
  }

  /** A clear Fudge flag means no term contains `df`. */
  lemma {:induction false} NoFudgeTermWithoutFlag(parts: seq<string>)
    requires !ParseTerms(parts).isFudge
    ensures forall k :: 0 <= k < |parts| ==> !Includes(parts[k], "df")
    decreases |parts|
  {
    if |parts| > 0 {
      FudgeFlagStep(parts);
      var front := parts[..|parts| - 1];
      NoFudgeTermWithoutFlag(front);
      assert forall k :: 0 <= k < |front| ==> parts[k] == front[k];
    }
  }

  lemma FudgeFlagStep(parts: seq<string>)
    requires |parts| > 0
    ensures ParseTerms(parts).isFudge
         == (ParseTerms(parts[..|parts| - 1]).isFudge || Includes(parts[|parts| - 1], "df"))
  {
  }

  /** Without a Fudge term, every group has a numeric, non-zero quantity. */
  lemma {:induction false} StandardQuantitiesNonZero(parts: seq<string>)
    requires !ParseTerms(parts).isFudge
    ensures forall k :: 0 <= k < |ParseTerms(parts).rolls| ==>
              ParseTerms(parts).rolls[k].qty.Some? && ParseTerms(parts).rolls[k].qty.value != 0
    decreases |parts|
  {
    if |parts| > 0 {
      StandardQuantitiesNonZero(parts[..|parts| - 1]);
    }
  }

  // ---------------------------------------------------------------------
  // Order: the parse of `a + "+" + b` is the parse of `a` followed by that of `b`
  // ---------------------------------------------------------------------

  function Combine(x: ParsedFormula, y: ParsedFormula): (r: ParsedFormula) {
    ParsedFormula(x.rolls + y.rolls, x.mod + y.mod, x.isFudge || y.isFudge)
  }

  lemma {:induction false} ParseTermsAppend(ps: seq<string>, qs: seq<string>)
    ensures ParseTerms(ps + qs) == Combine(ParseTerms(ps), ParseTerms(qs))
    decreases |qs|
  {
    if |qs| == 0 {
      assert ps + qs == ps;
      assert ParseTerms(ps).rolls + [] == ParseTerms(ps).rolls;
    } else {
      var front := qs[..|qs| - 1];
      assert (ps + qs)[..|ps + qs| - 1] == ps + front;
      assert (ps + qs)[|ps + qs| - 1] == qs[|qs| - 1];
      ParseTermsAppend(ps, front);
      StepCombine(ParseTerms(ps), ParseTerms(front), ClassifyTerm(qs[|qs| - 1]));
    }
  }

  lemma StepCombine(x: ParsedFormula, y: ParsedFormula, t: Term)
    ensures Step(Combine(x, y), t) == Combine(x, Step(y, t))
  {
    match t
    case FudgeTerm(r) =>
      assert x.rolls + y.rolls + [r] == x.rolls + (y.rolls + [r]);
    case DiceTerm(r) =>
      assert x.rolls + y.rolls + [r] == x.rolls + (y.rolls + [r]);
    case ModTerm(v) =>
  }

  /** Groups keep the order of their terms: joining two formulas with `+`
      concatenates their groups, adds their modifiers and ors their Fudge flags. */
  lemma ParseConcat(a: string, b: string)
    ensures ParseComplexFormula(a + "+" + b) == Combine(ParseComplexFormula(a), ParseComplexFormula(b))
  {
    assert Normalize(a + "+" + b) == Normalize(a) + "+" + Normalize(b) by {
      NormalizeAppend(a + "+", b);
      NormalizeAppend(a, "+");
      assert Normalize("+") == "+";
    }
    assert Terms(a + "+" + b) == Terms(a) + Terms(b) by {
      SplitAppend(Normalize(a), '+', Normalize(b));
    }
    ParseTermsAppend(Terms(a), Terms(b));
  }

  /** Whitespace and letter case are not significant. */
  lemma ParseIgnoresSpaceAndCase(formula: string)
    ensures ParseComplexFormula(Normalize(formula)) == ParseComplexFormula(formula)
  {
    NormalizeIdempotent(formula);
  }

  /** Inserting a whitespace character anywhere does not change the parse. */
  lemma ParseIgnoresWhitespace(a: string, c: char, b: string)
    requires IsWhitespace(c)
    ensures ParseComplexFormula(a + [c] + b) == ParseComplexFormula(a + b)
  {
    NormalizeAppend(a + [c], b);
    NormalizeAppend(a, [c]);
    NormalizeAppend(a, b);
    NormalizeChar(c);
    assert Normalize(a + [c] + b) == Normalize(a + b);
    assert Terms(a + [c] + b) == Terms(a + b);
  }

  /** Writing any letter in upper case does not change the parse. */
  lemma ParseIgnoresCase(a: string, c: char, b: string)
    ensures ParseComplexFormula(a + [c] + b) == ParseComplexFormula(a + [ToLower(c)] + b)
  {
    NormalizeAppend(a + [c], b);
    NormalizeAppend(a, [c]);
    NormalizeAppend(a + [ToLower(c)], b);
    NormalizeAppend(a, [ToLower(c)]);
    NormalizeChar(c);
    NormalizeChar(ToLower(c));
    assert Normalize(a + [c] + b) == Normalize(a + [ToLower(c)] + b);
    assert Terms(a + [c] + b) == Terms(a + [ToLower(c)] + b);
  }

  /** An empty or all-whitespace formula has no groups and modifier 0. */
  lemma ParseBlank(formula: string)
    requires forall i :: 0 <= i < |formula| ==> IsWhitespace(formula[i])
    ensures ParseComplexFormula(formula) == EmptyFormula
  {
    NormalizeBlank(formula);
    assert !Includes("", "+");
    assert Terms(formula) == [""];
    assert [""][..0] == [];
    assert ParseIntPrefix("") == None;
    assert !Includes("", "df") && !Includes("", "d");
  }

  // ---------------------------------------------------------------------
  // Notation round trip: a formula written from terms parses to those terms
  // ---------------------------------------------------------------------

  /** A term as a user writes it. */
  datatype TermSpec =
    | Dice(qty: int, faces: int)     // `<qty>d<faces>`
    | BareDice(faces: int)           // `d<faces>`
    | Fudge(qty: int)                // `<qty>df`
    | BareFudge                      // `df`
    | Flat(value: int)               // `<value>`

  function RenderTerm(t: TermSpec): (s: string) {
    match t
    case Dice(q, f) => IntToString(q) + "d" + IntToString(f)
    case BareDice(f) => "d" + IntToString(f)
    case Fudge(q) => IntToString(q) + "df"
    case BareFudge => "df"
    case Flat(v) => IntToString(v)
  }

  function RenderTerms(ts: seq<TermSpec>): (parts: seq<string>) {
    seq(|ts|, k requires 0 <= k < |ts| => RenderTerm(ts[k]))
  }

  /** `t1+t2+...+tn` */
  function FormulaText(ts: seq<TermSpec>): (s: string) {
    Join(RenderTerms(ts), "+")
  }

  /** `|| 1` turns a written quantity 0 into 1, so 0 is not a faithful quantity. */
  predicate WellWritten(t: TermSpec) {
    t.Dice? ==> t.qty != 0
  }

  /** What a written term means: the quantity and faces the notation shows,
      1 and 4 for an omitted quantity, six faces for Fudge dice. */
  function Apply(acc: ParsedFormula, t: TermSpec): (r: ParsedFormula) {
    match t
    case Dice(q, f) => acc.(rolls := acc.rolls + [ParsedRoll(Some(q), Some(f))])
    case BareDice(f) => acc.(rolls := acc.rolls + [ParsedRoll(Some(1), Some(f))])
    case Fudge(q) => acc.(rolls := acc.rolls + [ParsedRoll(Some(q), Some(6))], isFudge := true)
    case BareFudge => acc.(rolls := acc.rolls + [ParsedRoll(Some(4), Some(6))], isFudge := true)
    case Flat(v) => acc.(mod := acc.mod + v)
  }

  /** What a sequence of written terms means, term by term. */
  function Intended(ts: seq<TermSpec>): (p: ParsedFormula) {
    if |ts| == 0 then EmptyFormula else Apply(Intended(ts[..|ts| - 1]), ts[|ts| - 1])
  }

  lemma RenderedTermIsNormal(t: TermSpec)
    ensures IsNormal(RenderTerm(t)) && !Includes(RenderTerm(t), "+")
  {
    var s := RenderTerm(t);
    assert forall i :: 0 <= i < |s| ==> s[i] != '+';
    NotIncludedByFirstChar(s, "+");
  }

  /** `<x>d<y>` contains no `df` when x has no `d`, y does not start with
      `f` and y itself contains no `df`. */
  lemma NoFudgeMarker(x: string, y: string)
    requires !Includes(x, "d")
    requires |y| == 0 || y[0] != 'f'
    requires !Includes(y, "df")
    ensures !Includes(x + "d" + y, "df")
  {
    CharNotIncluded(x, 'd');
    var s := x + "d" + y;
    forall j: nat ensures !OccursAt(s, "df", j) {
      if j + 2 <= |s| {
        assert s[j..j + 2] == [s[j], s[j + 1]];
        if j < |x| {
          assert s[j] == x[j];
        } else if j == |x| {
          assert s[j + 1] == y[0];
        } else {
          assert s[j..j + 2] == y[j - |x| - 1..j - |x| + 1];
          assert !OccursAt(y, "df", j - |x| - 1);
        }
      }
    }
    NotIncluded(s, "df");
  }

  /** A numeral can follow the `d` of a standard term without forming `df`. */
  lemma NoFudgeMarkerNumeral(x: string, n: int)
    requires !Includes(x, "d")
    ensures !Includes(x + "d" + IntToString(n), "df")
  {
    NumeralExcludes(n, "df");
    NoFudgeMarker(x, IntToString(n));
  }

  /** Splitting `<x>d<y>` on `d`, with d-free x and y, gives x and y. */
  lemma SplitDice(x: string, y: string)
    requires !Includes(x, "d") && !Includes(y, "d")
    ensures SplitOn(x + "d" + y, "d") == [x, y]
  {
    SplitAppend(x, 'd', y);
  }

  /** Splitting `<x>df` on `df`, with d-free x, gives x first. */
  lemma SplitFudge(x: string)
    requires !Includes(x, "d")
    ensures Includes(x + "df", "df") && SplitOn(x + "df", "df")[0] == x
  {
    var s := x + "df";
    assert s[|x|..|x| + 2] == "df";
    CharNotIncluded(x, 'd');
    forall j: nat | j < |x| ensures !OccursAt(s, "df", j) {
      if j + 2 <= |s| {
        assert s[j..j + 2][0] == x[j];
      }
    }
    IndexOfIs(s, "df", |x|);
  }

  /** `<q>d<f>` is a standard group of q dice with f faces, for q other than 0. */
  lemma ClassifyDice(q: int, f: int)
    requires q != 0
    ensures ClassifyTerm(IntToString(q) + "d" + IntToString(f)) == DiceTerm(ParsedRoll(Some(q), Some(f)))
  {
    var x, y := IntToString(q), IntToString(f);
    NumeralExcludes(q, "d");
    NumeralExcludes(f, "d");
    NoFudgeMarkerNumeral(x, f);
    SplitDice(x, y);
    ParseIntOfIntToString(q, "");
    ParseIntOfIntToString(f, "");
    assert x + "" == x && y + "" == y;
  }

  /** `d<f>` is a standard group of one die with f faces. */
  lemma ClassifyBareDice(f: int)
    ensures ClassifyTerm("d" + IntToString(f)) == DiceTerm(ParsedRoll(Some(DefaultDiceQty), Some(f)))
  {
    var y := IntToString(f);
    NumeralExcludes(f, "d");
    assert !Includes("", "d");
    NoFudgeMarkerNumeral("", f);
    SplitDice("", y);
    assert "" + "d" + y == "d" + y;
    ParseIntOfIntToString(f, "");
    assert y + "" == y;
  }

  /** `<q>df` is a Fudge group of q six-sided dice, q = 0 included. */
  lemma ClassifyFudge(q: int)
    ensures ClassifyTerm(IntToString(q) + "df") == FudgeTerm(ParsedRoll(Some(q), Some(FudgeFaces)))
  {
    var x := IntToString(q);
    NumeralExcludes(q, "d");
    SplitFudge(x);
    ParseIntOfIntToString(q, "");
    assert x + "" == x;
  }

  /** `df` is a Fudge group of four six-sided dice. */
  lemma ClassifyBareFudge()
    ensures ClassifyTerm("df") == FudgeTerm(ParsedRoll(Some(DefaultFudgeQty), Some(FudgeFaces)))
  {
    assert !Includes("", "d");
    SplitFudge("");
    assert "" + "df" == "df";
  }

  /** A numeral `<v>` adds v to the modifier. */
  lemma ClassifyFlat(v: int)
    ensures ClassifyTerm(IntToString(v)) == ModTerm(v)
  {
    var x := IntToString(v);
    NumeralExcludes(v, "d");
    NumeralExcludes(v, "df");
    ParseIntOfIntToString(v, "");
    assert x + "" == x;
  }

  /** `<q>d` with nothing after the `d` still pushes a group; its face count is NaN. */
  lemma ClassifyMissingFaces(q: int)
    ensures ClassifyTerm(IntToString(q) + "d") == DiceTerm(ParsedRoll(Some(OrElse(Some(q), DefaultDiceQty)), None))
  {
    var x := IntToString(q);
    NumeralExcludes(q, "d");
    assert !Includes("", "d");
    assert !Includes("", "df");
    NoFudgeMarker(x, "");
    SplitDice(x, "");
    assert x + "d" + "" == x + "d";
    ParseIntOfIntToString(q, "");
    assert x + "" == x;
  }

  /** A Fudge term whose quantity text does not start with a number has a NaN quantity. */
  lemma ClassifyUnreadableFudge(x: string)
    requires x != "" && !Includes(x, "d") && ParseIntPrefix(x).None?
    ensures ClassifyTerm(x + "df") == FudgeTerm(ParsedRoll(None, Some(FudgeFaces)))
  {
    SplitFudge(x);
  }

  /** `0d<f>`: a written quantity 0 is falsy and becomes one die. */
  lemma ClassifyZeroQuantity(f: int)
    ensures ClassifyTerm("0d" + IntToString(f)) == DiceTerm(ParsedRoll(Some(1), Some(f)))
  {
    var y := IntToString(f);
    assert IntToString(0) == "0";
    NumeralExcludes(0, "d");
    NumeralExcludes(f, "d");
    NoFudgeMarkerNumeral("0", f);
    SplitDice("0", y);
    assert "0" + "d" + y == "0d" + y;
    ParseIntOfIntToString(0, "");
    ParseIntOfIntToString(f, "");
    assert "0" + "" == "0" && y + "" == y;
  }

  /** `<x>d<f>` with a quantity text that `parseInt` cannot read is one die. */
  lemma ClassifyUnreadableQuantity(x: string, f: int)
    requires !Includes(x, "d") && ParseIntPrefix(x).None?
    ensures ClassifyTerm(x + "d" + IntToString(f)) == DiceTerm(ParsedRoll(Some(1), Some(f)))
  {
    var y := IntToString(f);
    NumeralExcludes(f, "d");
    NoFudgeMarkerNumeral(x, f);
    SplitDice(x, y);
    ParseIntOfIntToString(f, "");
    assert y + "" == y;
  }

  /** `<q>d<f>d<g>`: only the piece between the first and second `d` gives
      the faces; the rest is ignored. */
  lemma ClassifyExtraFaces(q: int, f: int, g: int)
    requires q != 0
    ensures ClassifyTerm(IntToString(q) + "d" + IntToString(f) + "d" + IntToString(g))
         == DiceTerm(ParsedRoll(Some(q), Some(f)))
  {
    var x, y, z := IntToString(q), IntToString(f), IntToString(g);
    var s := x + "d" + y + "d" + z;
    NumeralExcludes(q, "d");
    NumeralExcludes(f, "d");
    NumeralExcludes(g, "d");
    NoFudgeMarkerNumeral(y, g);
    NoFudgeMarker(x, y + "d" + z);
    assert s == x + "d" + (y + "d" + z);
    SplitDice(y, z);
    assert s == x + ['d'] + (y + "d" + z);
    SplitAppend(x, 'd', y + "d" + z);
    ParseIntOfIntToString(q, "");
    ParseIntOfIntToString(f, "");
    assert x + "" == x && y + "" == y;
  }

  /** A term without `d` that `parseInt` cannot read adds 0 to the modifier. */
  lemma ClassifyUnreadableModifier(x: string)
    requires !Includes(x, "d") && ParseIntPrefix(x).None?
    ensures ClassifyTerm(x) == ModTerm(0)
  {
    CharNotIncluded(x, 'd');
    NotIncludedByFirstChar(x, "df");
  }

  lemma ClassifyRendered(acc: ParsedFormula, t: TermSpec)
    requires WellWritten(t)
    ensures Step(acc, ClassifyTerm(RenderTerm(t))) == Apply(acc, t)
  {
    match t
    case Dice(q, f) => ClassifyDice(q, f);
    case BareDice(f) => ClassifyBareDice(f);
    case Fudge(q) => ClassifyFudge(q);
    case BareFudge => ClassifyBareFudge();
    case Flat(v) => ClassifyFlat(v);
  }

  lemma {:induction false} ParseRenderedTerms(ts: seq<TermSpec>)
    requires forall k :: 0 <= k < |ts| ==> WellWritten(ts[k])
    ensures ParseTerms(RenderTerms(ts)) == Intended(ts)
    decreases |ts|
  {
    if |ts| > 0 {
      var front := ts[..|ts| - 1];
      var t := ts[|ts| - 1];
      var rs := RenderTerms(ts);
      assert forall k :: 0 <= k < |front| ==> front[k] == ts[k];
      ParseRenderedTerms(front);
      assert rs[..|ts| - 1] == RenderTerms(front);
      assert ParseTerms(rs) == Step(ParseTerms(RenderTerms(front)), ClassifyTerm(RenderTerm(t)));
      ClassifyRendered(Intended(front), t);
    }
  }

  /** A formula written from well-written terms parses to exactly the groups,
      modifier and Fudge flag the notation states. */
  lemma {:induction false} ParseFormulaText(ts: seq<TermSpec>)
    requires forall k :: 0 <= k < |ts| ==> WellWritten(ts[k])
    ensures ParseComplexFormula(FormulaText(ts)) == Intended(ts)
  {
    var parts := RenderTerms(ts);
    forall k | 0 <= k < |parts| ensures IsNormal(parts[k]) && !Includes(parts[k], "+") {
      RenderedTermIsNormal(ts[k]);
    }
    NormalizeJoin(parts, "+");
    assert Normalize("+") == "+";
    if |ts| == 0 {
      assert Terms(FormulaText(ts)) == [""];
      assert !Includes("", "df") && !Includes("", "d");
      assert ParseIntPrefix("") == None;
    } else {
      SplitJoin(parts, '+');
    }
    ParseRenderedTerms(ts);
  }

  // ---------------------------------------------------------------------
  // Worked examples. The formula is a parameter pinned by the precondition
  // so that the verifier reasons through the lemmas above instead of
  // unfolding the parser on a literal.
  // ---------------------------------------------------------------------

  /** `parseComplexFormula("2d6+1d8+5")` is two 6- and 8-sided groups of 2 and 1 dice, modifier 5, no Fudge flag. */
  lemma ExampleStandard(formula: string)
    requires formula == "2d6+1d8+5"
    ensures ParseComplexFormula(formula)
         == ParsedFormula([ParsedRoll(Some(2), Some(6)), ParsedRoll(Some(1), Some(8))], 5, false)
  {
    ExampleStandardText(formula);
    ExampleStandardTermsParse([Dice(2, 6), Dice(1, 8), Flat(5)]);
  }

  /** The text written for the terms 2d6, 1d8, 5 parses to their reference meaning. */
  lemma ExampleStandardTermsParse(ts: seq<TermSpec>)
    requires ts == [Dice(2, 6), Dice(1, 8), Flat(5)]
    ensures ParseComplexFormula(FormulaText(ts)) == ParsedFormula([ParsedRoll(Some(2), Some(6)), ParsedRoll(Some(1), Some(8))], 5, false)
  {
    ParseFormulaText(ts);
    ExampleStandardMeaning(ts);
  }

  /** The reference meaning of the terms 2d6, 1d8, 5. */
  lemma ExampleStandardMeaning(ts: seq<TermSpec>)
    requires ts == [Dice(2, 6), Dice(1, 8), Flat(5)]
    ensures Intended(ts) == ParsedFormula([ParsedRoll(Some(2), Some(6)), ParsedRoll(Some(1), Some(8))], 5, false)
  {
    assert ts[..2] == [Dice(2, 6), Dice(1, 8)];
    assert ts[..2][..1] == [Dice(2, 6)];
    assert ts[..2][..1][..0] == [];
    assert Intended([Dice(2, 6)]) == ParsedFormula([ParsedRoll(Some(2), Some(6))], 0, false);
    assert Intended(ts[..2]) == ParsedFormula([ParsedRoll(Some(2), Some(6)), ParsedRoll(Some(1), Some(8))], 0, false);
  }

  /** `"2d6+1d8+5"` is the text written for the terms 2d6, 1d8, 5. */
  lemma ExampleStandardText(text: string)
    requires text == "2d6+1d8+5"
    ensures text == FormulaText([Dice(2, 6), Dice(1, 8), Flat(5)])
  {
    var ts := [Dice(2, 6), Dice(1, 8), Flat(5)];
    assert RenderTerm(Dice(2, 6)) == "2d6";
    assert RenderTerm(Dice(1, 8)) == "1d8";
    assert RenderTerm(Flat(5)) == "5";
    assert RenderTerms(ts) == ["2d6", "1d8", "5"];
    assert ["2d6", "1d8", "5"][1..] == ["1d8", "5"];
    assert ["1d8", "5"][1..] == ["5"];
  }

  /** `parseComplexFormula("4df+2")` is one group of four six-sided dice, modifier 2, Fudge flag set. */
  lemma ExampleFudge(formula: string)
    requires formula == "4df+2"
    ensures ParseComplexFormula(formula) == ParsedFormula([ParsedRoll(Some(4), Some(6))], 2, true)
  {
    ExampleFudgeText(formula);
    ExampleFudgeTermsParse([Fudge(4), Flat(2)]);
  }

  /** The text written for the terms 4df, 2 parses to their reference meaning. */
  lemma ExampleFudgeTermsParse(ts: seq<TermSpec>)
    requires ts == [Fudge(4), Flat(2)]
    ensures ParseComplexFormula(FormulaText(ts)) == ParsedFormula([ParsedRoll(Some(4), Some(6))], 2, true)
  {
    ParseFormulaText(ts);
    ExampleFudgeMeaning(ts);
  }

  /** The reference meaning of the terms 4df, 2. */
  lemma ExampleFudgeMeaning(ts: seq<TermSpec>)
    requires ts == [Fudge(4), Flat(2)]
    ensures Intended(ts) == ParsedFormula([ParsedRoll(Some(4), Some(6))], 2, true)
  {
    assert ts[..1] == [Fudge(4)];
    assert ts[..1][..0] == [];
    assert Intended(ts[..1]) == ParsedFormula([ParsedRoll(Some(4), Some(6))], 0, true);
  }

  /** `"4df+2"` is the text written for the terms 4df, 2. */
  lemma ExampleFudgeText(text: string)
    requires text == "4df+2"
    ensures text == FormulaText([Fudge(4), Flat(2)])
  {
    var ts := [Fudge(4), Flat(2)];
    assert RenderTerm(Fudge(4)) == "4df";
    assert RenderTerm(Flat(2)) == "2";
    assert RenderTerms(ts) == ["4df", "2"];
    assert ["4df", "2"][1..] == ["2"];
  }

  /** `parseComplexFormula("2d6 + 1D8 + 5")` is the same as for `2d6+1d8+5`: spaces and the capital `D` make no difference. */
  lemma ExampleSpaced(formula: string)
    requires formula == "2d6 + 1D8 + 5"
    ensures ParseComplexFormula(formula)
         == ParsedFormula([ParsedRoll(Some(2), Some(6)), ParsedRoll(Some(1), Some(8))], 5, false)
  {
    ExampleSpacedNormal(formula);
    ParseIgnoresSpaceAndCase(formula);
    ExampleStandard(Normalize(formula));
  }

  /** `parseComplexFormula("4dF+2")` is the same as for `4df+2`: the capital `F` of the Fudge marker is read as `df`. */
  lemma ExampleFudgeUpper(formula: string)
    requires formula == "4dF+2"
    ensures ParseComplexFormula(formula) == ParsedFormula([ParsedRoll(Some(4), Some(6))], 2, true)
  {
    ExampleFudgeUpperNormal(formula);
    ParseIgnoresSpaceAndCase(formula);
    ExampleFudge(Normalize(formula));
  }

}

=== FILE: js_text.dfy ===
/** The JavaScript string and number primitives the dice store relies on,
    restricted to ASCII: `replace(/\s/g, "")`, `toLowerCase`, `includes`,
    `split`, `join`, `parseInt` and the rendering of an integer into a
    template literal. */
module JsText {
  import opened Wrappers

  // ---------------------------------------------------------------------
  // Characters
  // ---------------------------------------------------------------------

  predicate IsDigit(c: char) { '0' <= c <= '9' }

  function DigitValue(c: char): (d: nat)
    requires IsDigit(c)
    ensures d < 10
  {
    c as int - '0' as int
  }

  function DigitChar(d: nat): (c: char)
    requires d < 10
    ensures IsDigit(c) && DigitValue(c) == d
  {
    ('0' as int + d) as char
  }

  /** The ASCII members of the regular-expression class `\s`. */
  predicate IsWhitespace(c: char) {
    c == ' ' || c == '\t' || c == '\n' || c == '\r' || c as int == 0x0B || c as int == 0x0C
  }

  predicate IsUpper(c: char) { 'A' <= c <= 'Z' }

  /** `toLowerCase` on one character: an upper-case letter becomes the
      lower-case letter at the same place in the alphabet; anything else stays. */
  function ToLower(c: char): (l: char)
    ensures IsUpper(c) ==> 'a' <= l <= 'z' && l as int - 'a' as int == c as int - 'A' as int
    ensures !IsUpper(c) ==> l == c
    ensures !IsUpper(l)
  {
    if IsUpper(c) then (c as int + 32) as char else c
  }

  /** A character an integer numeral can contain. */
  predicate IsNumeralChar(c: char) { c == '-' || IsDigit(c) }

  // ---------------------------------------------------------------------
  // formula.replace(/\s/g, "").toLowerCase()
  // ---------------------------------------------------------------------

  /** A string with no whitespace and no upper-case letter. */
  predicate IsNormal(s: string) {
    forall i :: 0 <= i < |s| ==> !IsWhitespace(s[i]) && !IsUpper(s[i])
  }

  /** Every whitespace character removed, every ASCII letter lower-cased. */
  function Normalize(s: string): (r: string)
    ensures |r| <= |s|
    ensures IsNormal(r)
  {
    if |s| == 0 then ""
    else (if IsWhitespace(s[0]) then "" else [ToLower(s[0])]) + Normalize(s[1..])
  }

  /** One character: whitespace is dropped, anything else is lower-cased. */
  lemma NormalizeChar(c: char)
    ensures Normalize([c]) == if IsWhitespace(c) then "" else [ToLower(c)]
  {
    assert [c][1..] == [];
  }

  lemma {:induction false} NormalizeAppend(a: string, b: string)
    ensures Normalize(a + b) == Normalize(a) + Normalize(b)
    decreases |a|
  {
    if |a| == 0 {
      assert a + b == b;
    } else {
      assert (a + b)[1..] == a[1..] + b;
      NormalizeAppend(a[1..], b);
    }
  }

  /** A string that is already normal is left as it is. */
  lemma {:induction false} NormalizeNormal(s: string)
    requires IsNormal(s)
    ensures Normalize(s) == s
    decreases |s|
  {
    if |s| > 0 {
      assert IsNormal(s[1..]);
      NormalizeNormal(s[1..]);
      assert s == [s[0]] + s[1..];
    }
  }

  lemma NormalizeIdempotent(s: string)
    ensures Normalize(Normalize(s)) == Normalize(s)
  {
    NormalizeNormal(Normalize(s));
  }

  /** An all-whitespace string (the empty one included) normalizes to "". */
  lemma {:induction false} NormalizeBlank(s: string)
    requires forall i :: 0 <= i < |s| ==> IsWhitespace(s[i])
    ensures Normalize(s) == ""
    decreases |s|
  {
    if |s| > 0 {
      NormalizeBlank(s[1..]);
    }
  }

  // ---------------------------------------------------------------------
  // includes / indexOf
  // ---------------------------------------------------------------------

  predicate OccursAt(s: string, pat: string, i: nat) {
    i + |pat| <= |s| && s[i..i + |pat|] == pat
  }

  function IndexOfFrom(s: string, pat: string, from: nat): (r: Option<nat>)
    ensures r.Some? ==> from <= r.value && OccursAt(s, pat, r.value)
    ensures r.Some? ==> forall j: nat :: from <= j < r.value ==> !OccursAt(s, pat, j)
    ensures r.None? ==> forall j: nat :: from <= j ==> !OccursAt(s, pat, j)
    decreases |s| - from
  {
    if from + |pat| > |s| then None
    else if OccursAt(s, pat, from) then Some(from)
    else IndexOfFrom(s, pat, from + 1)
  }

  /** `s.indexOf(pat)`: the leftmost occurrence, None standing for -1. */
  function IndexOf(s: string, pat: string): (r: Option<nat>) {
    IndexOfFrom(s, pat, 0)
  }

  /** `s.includes(pat)` */
  predicate Includes(s: string, pat: string) {
    IndexOf(s, pat).Some?
  }

  /** The leftmost occurrence is the one `IndexOf` reports. */
  lemma IndexOfIs(s: string, pat: string, i: nat)
    requires OccursAt(s, pat, i)
    requires forall j: nat :: j < i ==> !OccursAt(s, pat, j)
    ensures IndexOf(s, pat) == Some(i)
  {
  }

  lemma NotIncluded(s: string, pat: string)
    requires forall j: nat :: !OccursAt(s, pat, j)
    ensures !Includes(s, pat)
  {
  }

  /** A pattern whose first character never appears in `s` does not occur in it. */
  lemma NotIncludedByFirstChar(s: string, pat: string)
    requires |pat| > 0
    requires forall i :: 0 <= i < |s| ==> s[i] != pat[0]
    ensures !Includes(s, pat)
  {
    forall j: nat ensures !OccursAt(s, pat, j) {
      if j + |pat| <= |s| {
        assert s[j..j + |pat|][0] == s[j];
      }
    }
    NotIncluded(s, pat);
  }

  /** A character `includes` does not find appears nowhere in the string. */
  lemma CharNotIncluded(s: string, c: char)
    requires !Includes(s, [c])
    ensures forall i :: 0 <= i < |s| ==> s[i] != c
  {
    forall i | 0 <= i < |s| ensures s[i] != c {
      assert s[i..i + 1] == [s[i]];
      assert !OccursAt(s, [c], i);
    }
  }

  /** An occurrence inside a prefix is an occurrence in the whole string. */
  lemma OccursInPrefix(s: string, pat: string, n: nat, j: nat)
    requires n <= |s|
    ensures OccursAt(s[..n], pat, j) ==> OccursAt(s, pat, j)
  {
    if j + |pat| <= n {
      assert s[..n][j..j + |pat|] == s[j..j + |pat|];
    }
  }

  /** When a character does not occur in `a`, its first occurrence in `a + [c] + b` is right after `a`. */
  lemma IndexOfCharAfter(a: string, c: char, b: string)
    requires !Includes(a, [c])
    ensures IndexOf(a + [c] + b, [c]) == Some(|a|)
  {
    var s := a + [c] + b;
    assert s[|a|..|a| + 1] == [c];
    forall j: nat | j < |a| ensures !OccursAt(s, [c], j) {
      assert !OccursAt(a, [c], j);
      assert s[j..j + 1] == a[j..j + 1];
    }
    IndexOfIs(s, [c], |a|);
  }

  // ---------------------------------------------------------------------
  // split / join
  // ---------------------------------------------------------------------

  /** `s.split(sep)` for a non-empty separator: the pieces between successive
      leftmost occurrences of `sep`. */
  function SplitOn(s: string, sep: string): (r: seq<string>)
    requires |sep| > 0
    ensures |r| >= 1
    ensures Includes(s, sep) <==> |r| >= 2
    ensures !Includes(s, sep) ==> r == [s]
    ensures Includes(s, sep) ==> r[0] == s[..IndexOf(s, sep).value]
    decreases |s|
  {
    match IndexOf(s, sep)
    case None => [s]
    case Some(i) =>
      [s[..i]] + SplitOn(s[i + |sep|..], sep)
  }

  /** No piece of a split contains the separator. */
  lemma {:induction false} SplitPiecesExclude(s: string, sep: string, k: nat)
    requires |sep| > 0 && k < |SplitOn(s, sep)|
    ensures !Includes(SplitOn(s, sep)[k], sep)
    decreases |s|
  {
    if IndexOf(s, sep).Some? {
      var i := IndexOf(s, sep).value;
      if k == 0 {
        forall j: nat ensures !OccursAt(s[..i], sep, j) {
          OccursInPrefix(s, sep, i, j);
        }
        NotIncluded(s[..i], sep);
      } else {
        SplitPiecesExclude(s[i + |sep|..], sep, k - 1);
      }
    }
  }

  /** `parts.join(sep)` */
  function Join(parts: seq<string>, sep: string): (r: string) {
    if |parts| == 0 then ""
    else if |parts| == 1 then parts[0]
    else parts[0] + sep + Join(parts[1..], sep)
  }

  /** A join starts with its first part and ends with its last. */
  lemma {:induction false} JoinEnds(parts: seq<string>, sep: string)
    requires |parts| > 0
    ensures var r := Join(parts, sep);
      && |parts[0]| <= |r| && r[..|parts[0]|] == parts[0]
      && |parts[|parts| - 1]| <= |r| && r[|r| - |parts[|parts| - 1]|..] == parts[|parts| - 1]
    decreases |parts|
  {
    if |parts| > 1 {
      var rest := Join(parts[1..], sep);
      JoinEnds(parts[1..], sep);
      assert parts[1..][|parts| - 2] == parts[|parts| - 1];
      assert Join(parts, sep) == parts[0] + sep + rest;
    }
  }

  lemma SplitAround(s: string, sep: string, i: nat)
    requires OccursAt(s, sep, i)
    ensures s == s[..i] + sep + s[i + |sep|..]
  {
    assert s == s[..i] + s[i..i + |sep|] + s[i + |sep|..];
  }

  lemma JoinCons(head: string, tail: seq<string>, sep: string)
    requires |tail| >= 1
    ensures Join([head] + tail, sep) == head + sep + Join(tail, sep)
  {
    assert ([head] + tail)[1..] == tail;
  }

  /** Dropping whitespace and lower-casing a join of already normal parts
      only normalises the separators. */
  lemma {:induction false} NormalizeJoin(parts: seq<string>, sep: string)
    requires forall k :: 0 <= k < |parts| ==> IsNormal(parts[k])
    ensures Normalize(Join(parts, sep)) == Join(parts, Normalize(sep))
    decreases |parts|
  {
    if |parts| == 1 {
      NormalizeNormal(parts[0]);
    } else if |parts| > 1 {
      NormalizeJoin(parts[1..], sep);
      NormalizeNormal(parts[0]);
      NormalizeAppend(parts[0] + sep, Join(parts[1..], sep));
      NormalizeAppend(parts[0], sep);
    }
  }

  /** Joining the pieces with the separator gives back the string that was split. */
  lemma {:induction false} JoinSplit(s: string, sep: string)
    requires |sep| > 0
    ensures Join(SplitOn(s, sep), sep) == s
    decreases |s|
  {
    var r := IndexOf(s, sep);
    if r.Some? {
      var i := r.value;
      var rest := s[i + |sep|..];
      assert SplitOn(s, sep) == [s[..i]] + SplitOn(rest, sep);
      JoinSplit(rest, sep);
      JoinCons(s[..i], SplitOn(rest, sep), sep);
      assert OccursAt(s, sep, i);
      SplitAround(s, sep, i);
    }
  }

  /** Splitting on a single character distributes over a concatenation at that character. */
  lemma {:induction false} SplitAppend(a: string, c: char, b: string)
    ensures SplitOn(a + [c] + b, [c]) == SplitOn(a, [c]) + SplitOn(b, [c])
    decreases |a|
  {
    match IndexOf(a, [c])
    case None =>
      SplitAppendFirst(a, c, b);
    case Some(i) =>
      var p, t := a[..i], a[i + 1..];
      SplitAround(a, [c], i);
      PrefixBeforeFirst(a, [c], i);
      SplitAppend(t, c, b);
      SplitAppendStep(p, t, c, b);
      assert a + [c] + b == p + [c] + t + [c] + b;
  }

  /** A first piece `p` in front of a string the property holds for. */
  lemma SplitAppendStep(p: string, t: string, c: char, b: string)
    requires !Includes(p, [c])
    requires SplitOn(t + [c] + b, [c]) == SplitOn(t, [c]) + SplitOn(b, [c])
    ensures SplitOn(p + [c] + t + [c] + b, [c]) == SplitOn(p + [c] + t, [c]) + SplitOn(b, [c])
  {
    var u := t + [c] + b;
    var x, y := SplitOn(t, [c]), SplitOn(b, [c]);
    calc {
      SplitOn(p + [c] + t + [c] + b, [c]);
      { Regroup(p, c, t, b); }
      SplitOn(p + [c] + u, [c]);
      { SplitAppendFirst(p, c, u); }
      [p] + SplitOn(u, [c]);
      [p] + (x + y);
      { ConsAssoc(p, x, y); }
      ([p] + x) + y;
      { SplitAppendFirst(p, c, t); }
      SplitOn(p + [c] + t, [c]) + y;
    }
  }

  lemma Regroup(p: string, c: char, t: string, b: string)
    ensures p + [c] + t + [c] + b == p + [c] + (t + [c] + b)
  {
  }

  lemma ConsAssoc<T>(h: T, x: seq<T>, y: seq<T>)
    ensures [h] + (x + y) == ([h] + x) + y
  {
  }

  /** The separator after a separator-free `a` is the first one. */
  lemma SplitAppendFirst(a: string, c: char, b: string)
    requires !Includes(a, [c])
    ensures SplitOn(a + [c] + b, [c]) == [a] + SplitOn(b, [c])
  {
    var s := a + [c] + b;
    IndexOfCharAfter(a, c, b);
    assert s[|a| + 1..] == b;
    assert s[..|a|] == a;
  }

  /** Nothing before the leftmost occurrence is an occurrence. */
  lemma PrefixBeforeFirst(a: string, pat: string, i: nat)
    requires |pat| > 0 && IndexOf(a, pat) == Some(i)
    ensures !Includes(a[..i], pat)
  {
    forall j: nat ensures !OccursAt(a[..i], pat, j) {
      OccursInPrefix(a, pat, i, j);
    }
    NotIncluded(a[..i], pat);
  }

  /** Splitting the join of separator-free pieces on a single character gives the pieces back. */
  lemma {:induction false} SplitJoin(parts: seq<string>, c: char)
    requires |parts| >= 1
    requires forall k :: 0 <= k < |parts| ==> !Includes(parts[k], [c])
    ensures SplitOn(Join(parts, [c]), [c]) == parts
    decreases |parts|
  {
    if |parts| == 1 {
      assert Join(parts, [c]) == parts[0];
    } else {
      var rest := Join(parts[1..], [c]);
      assert forall k :: 0 <= k < |parts| - 1 ==> parts[1..][k] == parts[k + 1];
      SplitJoin(parts[1..], c);
      calc {
        SplitOn(Join(parts, [c]), [c]);
        SplitOn(parts[0] + [c] + rest, [c]);
        { SplitAppendFirst(parts[0], c, rest); }
        [parts[0]] + SplitOn(rest, [c]);
        [parts[0]] + parts[1..];
        parts;
      }
    }
  }

  // ---------------------------------------------------------------------
  // parseInt and integer rendering
  // ---------------------------------------------------------------------

  /** Length of the longest prefix of `s` made of decimal digits. */
  function DigitRun(s: string): (n: nat)
    ensures n <= |s|
    ensures forall i :: 0 <= i < n ==> IsDigit(s[i])
    ensures n < |s| ==> !IsDigit(s[n])
  {
    if |s| == 0 || !IsDigit(s[0]) then 0 else 1 + DigitRun(s[1..])
  }

  predicate AllDigits(s: string) {
    forall i :: 0 <= i < |s| ==> IsDigit(s[i])
  }

  /** The value of a decimal digit string, read left to right. */
  function DigitsValue(ds: string): (n: nat)
    requires AllDigits(ds)
  {
    if |ds| == 0 then 0 else 10 * DigitsValue(ds[..|ds| - 1]) + DigitValue(ds[|ds| - 1])
  }

  /** `s` with one leading sign character removed, if it has one. */
  function Unsigned(s: string): (u: string) {
    if |s| > 0 && (s[0] == '-' || s[0] == '+') then s[1..] else s
  }

  /** JavaScript `parseInt(s)` on a string with no leading whitespace:
      an optional sign followed by the longest decimal digit prefix.
      None stands for NaN, returned when no digit follows the sign. */
  function ParseIntPrefix(s: string): (r: Option<int>)
    ensures r.None? <==> |Unsigned(s)| == 0 || !IsDigit(Unsigned(s)[0])
    ensures r.Some? && r.value < 0 ==> s[0] == '-'
  {
    var body := Unsigned(s);
    var n := DigitRun(body);
    if n == 0 then None
    else
      var magnitude: int := DigitsValue(body[..n]);
      Some(if s[0] == '-' then -magnitude else magnitude)
  }

  function NatToString(n: nat): (r: string)
    ensures |r| > 0 && AllDigits(r)
    ensures r[0] == '0' <==> n == 0
    ensures n == 0 ==> |r| == 1
  {
    if n < 10 then [DigitChar(n)] else NatToString(n / 10) + [DigitChar(n % 10)]
  }

  /** How an integer-valued number is rendered by `String(n)` or a template literal. */
  function IntToString(n: int): (r: string)
    ensures |r| > 0
    ensures forall i :: 0 <= i < |r| ==> IsNumeralChar(r[i])
    ensures IsDigit(r[0]) <==> n >= 0
  {
    if n < 0 then "-" + NatToString(-n) else NatToString(n)
  }

  lemma {:induction false} DigitsValueOfNatToString(n: nat)
    ensures DigitsValue(NatToString(n)) == n
    decreases n
  {
    if n >= 10 {
      var ds := NatToString(n);
      DigitsValueOfNatToString(n / 10);
      assert ds[..|ds| - 1] == NatToString(n / 10);
    }
  }

  lemma {:induction false} DigitRunOfDigits(ds: string, rest: string)
    requires AllDigits(ds)
    requires |rest| == 0 || !IsDigit(rest[0])
    ensures DigitRun(ds + rest) == |ds|
    decreases |ds|
  {
    if |ds| == 0 {
      assert ds + rest == rest;
    } else {
      assert (ds + rest)[1..] == ds[1..] + rest;
      DigitRunOfDigits(ds[1..], rest);
    }
  }

  /** `parseInt` reads back what integer rendering wrote, whatever non-digit text follows. */
  lemma ParseIntOfIntToString(n: int, rest: string)
    requires |rest| == 0 || !IsDigit(rest[0])
    ensures ParseIntPrefix(IntToString(n) + rest) == Some(n)
  {
    var m: nat := if n < 0 then -n else n;
    var ds := NatToString(m);
    DigitsValueOfNatToString(m);
    if n < 0 {
      assert IntToString(n) + rest == "-" + (ds + rest);
      ParseIntOfNegativeDigits(ds, rest);
    } else {
      assert IntToString(n) + rest == ds + rest;
      ParseIntOfDigits(ds, rest);
    }
  }

  lemma ParseIntOfDigits(ds: string, rest: string)
    requires |ds| > 0 && AllDigits(ds)
    requires |rest| == 0 || !IsDigit(rest[0])
    ensures ParseIntPrefix(ds + rest) == Some(DigitsValue(ds))
  {
    assert (ds + rest)[0] == ds[0] && IsDigit(ds[0]);
    DigitRunOfDigits(ds, rest);
    assert (ds + rest)[..|ds|] == ds;
    assert Unsigned(ds + rest) == ds + rest;
  }

  lemma ParseIntOfNegativeDigits(ds: string, rest: string)
    requires |ds| > 0 && AllDigits(ds)
    requires |rest| == 0 || !IsDigit(rest[0])
    ensures ParseIntPrefix("-" + (ds + rest)).Some?
    ensures ParseIntPrefix("-" + (ds + rest)).value == 0 - DigitsValue(ds) as int
  {
    DigitRunOfDigits(ds, rest);
    assert (ds + rest)[..|ds|] == ds;
    assert Unsigned("-" + (ds + rest)) == ds + rest;
  }

  /** Decimal digits as `String(n)` writes them: at least one, and no
      leading zero unless the number is 0 itself. */
  predicate CanonicalDigits(ds: string) {
    |ds| > 0 && AllDigits(ds) && (ds[0] == '0' ==> |ds| == 1)
  }

  /** An integer as `String(n)` writes it: canonical digits, after a minus
      sign for a negative number (so never `-0`). */
  predicate CanonicalNumeral(s: string) {
    |s| > 0 &&
    if s[0] == '-' then CanonicalDigits(s[1..]) && s[1..] != "0" else CanonicalDigits(s)
  }

  lemma IntToStringCanonical(n: int)
    ensures CanonicalNumeral(IntToString(n))
  {
  }

  /** Digits that do not start with 0 are worth at least 1. */
  lemma {:induction false} DigitsValuePositive(ds: string)
    requires |ds| > 0 && AllDigits(ds) && ds[0] != '0'
    ensures DigitsValue(ds) >= 1
    decreases |ds|
  {
    if |ds| > 1 {
      var front := ds[..|ds| - 1];
      assert front[0] == ds[0];
      DigitsValuePositive(front);
    }
  }

  /** Canonical digits are the rendering of their own value. */
  lemma {:induction false} NatToStringOfDigits(ds: string)
    requires CanonicalDigits(ds)
    ensures NatToString(DigitsValue(ds)) == ds
    decreases |ds|
  {
    var last := ds[|ds| - 1];
    var front := ds[..|ds| - 1];
    if |ds| == 1 {
      assert front == [];
      assert DigitChar(DigitValue(last)) == last;
      assert ds == [last];
    } else {
      assert front[0] == ds[0] && ds[0] != '0';
      DigitsValuePositive(front);
      NatToStringOfDigits(front);
      var v := DigitsValue(ds);
      assert v / 10 == DigitsValue(front) && v % 10 == DigitValue(last);
      assert DigitChar(DigitValue(last)) == last;
      assert ds == front + [last];
    }
  }

  /** Every canonical numeral is the rendering of the number parseInt reads
      from it; with `IntToStringCanonical` and `ParseIntOfIntToString`, the
      rendering of n is the one canonical numeral that reads back as n. */
  lemma CanonicalNumeralIsRendering(s: string)
    requires CanonicalNumeral(s)
    ensures ParseIntPrefix(s).Some?
    ensures s == IntToString(ParseIntPrefix(s).value)
  {
    if s[0] == '-' {
      var ds := s[1..];
      assert s == "-" + (ds + "");
      ParseIntOfNegativeDigits(ds, "");
      assert ds[0] != '0';
      DigitsValuePositive(ds);
      NatToStringOfDigits(ds);
    } else {
      assert s == s + "";
      ParseIntOfDigits(s, "");
      NatToStringOfDigits(s);
    }
  }

  /** A numeral never contains a character that is not part of a numeral. */
  lemma NumeralExcludes(n: int, pat: string)
    requires |pat| > 0 && !IsNumeralChar(pat[0])
    ensures !Includes(IntToString(n), pat)
  {
    NotIncludedByFirstChar(IntToString(n), pat);
  }

  // ---------------------------------------------------------------------
  // Normalisation of two sample formulas. Each text is a parameter pinned
  // by the precondition so that `Normalize` is applied through the lemmas
  // above instead of being unfolded on a literal.
  // ---------------------------------------------------------------------

  /** `"2d6 + 1D8 + 5"` normalises to `"2d6+1d8+5"`. */
  lemma ExampleSpacedNormal(text: string)
    requires text == "2d6 + 1D8 + 5"
    ensures Normalize(text) == "2d6+1d8+5"
  {
    ExampleSpacedPieces(text, "2d6", "1D8", "5");
  }

  /** The pieces are parameters so that `Normalize` is applied to them
      through the lemmas rather than unfolded on literals. */
  lemma ExampleSpacedPieces(text: string, a: string, b: string, c: string)
    requires a == "2d6" && b == "1D8" && c == "5"
    requires text == a + " + " + b + " + " + c
    ensures Normalize(text) == "2d6+1d8+5"
  {
    NormalizeSpacedPlus(a + " + " + b, c);
    NormalizeSpacedPlus(a, b);
    ExampleCapitalD(b);
    ExampleLowerDice(a);
    NormalizeChar('5');
    assert c == ['5'];
  }

  /** `"2d6"` normalises to itself. */
  lemma ExampleLowerDice(text: string)
    requires text == "2d6"
    ensures Normalize(text) == "2d6"
  {
    NormalizeAppend("2" + "d", "6");
    NormalizeAppend("2", "d");
    NormalizeChar('2');
    NormalizeChar('d');
    NormalizeChar('6');
  }

  /** `"1D8"` normalises to `"1d8"`. */
  lemma ExampleCapitalD(text: string)
    requires text == "1D8"
    ensures Normalize(text) == "1d8"
  {
    NormalizeAppend("1" + "D", "8");
    NormalizeAppend("1", "D");
    NormalizeChar('1');
    NormalizeChar('D');
    NormalizeChar('8');
  }

  /** `a + " + " + b` normalises to the normalised pieces around a `+`. */
  lemma NormalizeSpacedPlus(a: string, b: string)
    ensures Normalize(a + " + " + b) == Normalize(a) + "+" + Normalize(b)
  {
    NormalizeAppend(a + " + ", b);
    NormalizeAppend(a, " + ");
    assert Normalize(" + ") == "+";
  }

  /** `"4dF+2"` normalises to `"4df+2"`. */
  lemma ExampleFudgeUpperNormal(text: string)
    requires text == "4dF+2"
    ensures Normalize(text) == "4df+2"
  {
    ExampleFudgeUpperPieces(text, "4d", "+2");
  }

  /** `"4dF+2"`, given as the pieces `4d`, `F` and `+2`, normalises to `"4df+2"`. */
  lemma ExampleFudgeUpperPieces(text: string, a: string, b: string)
    requires a == "4d" && b == "+2"
    requires text == a + "F" + b
    ensures Normalize(text) == "4df+2"
  {
    NormalizeAppend(a + "F", b);
    NormalizeAppend(a, "F");
    NormalizeChar('F');
    assert IsNormal(a) && IsNormal(b);
    NormalizeNormal(a);
    NormalizeNormal(b);
  }
}

=== FILE: wrappers.dfy ===
/** The optional-value wrapper the model uses wherever JavaScript would
    produce `NaN` (a failed `parseInt`) or `null` (no pending request,
    no result yet). */
module Wrappers {

  datatype Option<+T> = None | Some(value: T)
}
